=== FILE: README.md ===
# Conference API decision logic in Dafny

This project models the decision core of the conference-management API in
`conference.py`, a Cloud Endpoints service on App Engine. The service lets
signed-in users do the following:

- create and update conferences;
- query conferences with client-supplied filters;
- keep a profile;
- register for conferences against a seat counter;
- add sessions with speakers;
- keep a wishlist of sessions.

It also keeps two cached notices: the "nearly sold out" announcement and
the featured-speaker notice.

The datastore, the cache and the task queue are values:

- The store is a record of maps keyed by numeric ids, plus one id
  allocator (`Datastore.Store`).
- The cache is a map from slot name to text.
- The task queue is a sequence of queued tasks.

Every endpoint is a pure function. It takes the caller (`Option<User>`,
where `None` means not signed in), the request and the state. It returns a
`Result`: either the new state and reply, or the error the endpoint raises.
An error carries no new state, so each such call is one atomic step. This
matches the transactional endpoints, and most of the others raise before
their first write.

The profile save is the exception. `str()` on a non-ASCII display name
raises `UnicodeEncodeError` after `_getProfileFromUser` may already have
stored a new profile. So `Profiles.DoProfile` returns the store next to its
`Result`, and on that error the new profile stays.

Ids from the allocator only grow. Among keys with the same parent,
ascending id order is the datastore's key order. "First match" and "all
matches" queries are scans over the ids below the allocator
(`Datastore.IdsWhere`, `Datastore.FirstWhere`). Where keys with different
parents are ordered, the parent comes first (`Announcements.IndexBefore`).
Ancestor keys are explicit parent fields. A websafe key is the id it
encodes; "## Left out" says what that hides.

Modules, one per part of the source:

| module | models |
|---|---|
| `Common` | `Option`, `Result` and the API's errors |
| `Text` | `sep.join`, Python 2 `int()` and `str()` on integers, list rendering |
| `Datastore` | the entities, the store and the query scans |
| `Filters` | `_formatFilters`, `_getQuery`, `FIELDS`, `OPERATORS` |
| `Profiles` | `_getProfileFromUser`, `_doProfile` |
| `Conferences` | `_createConferenceObject`, `_updateConferenceObject`, `DEFAULTS` |
| `Registration` | `_conferenceRegistration` and the seat accounting |
| `Announcements` | `_cacheAnnouncement`, `getAnnouncement` |
| `Sessions` | `_createSessionObject`, `SESSION_DEFAULTS` |
| `FeaturedSpeaker` | `_checkFeaturedSpeaker`, the task handler that runs it, `getFeaturedSpeaker` |
| `Wishlists` | `_createWishListObject`, as written and corrected |

Where the code and its own docstrings disagree, the model follows the code
and says so in a comment. Three places are affected:

- The featured-speaker recomputation does not check for "more than one
  session".
- It lists the speaker's sessions in every conference, not only the given
  one.
- The session docstring says only a user who has created a conference may
  add a session (conference.py:573-574). The code lets any signed-in user
  add a session to any existing conference (`Sessions.CreateSession`).

Four behaviours a reader might not expect:

- A query with an equality on `MONTH` and an inequality on
  `MAX_ATTENDEES` is ordered by `maxAttendees` and then by name, not by name
  alone (`Filters.ExampleOneInequality`).
- When a new speaker gives two sessions, the featured-speaker notice lists
  only the second one, not both. The first session points at the key
  allocated for the speaker, and the speaker is stored under another key
  (`FeaturedSpeaker.SecondSessionOnlyListed`).
- A new conference whose `maxAttendees` is not positive keeps the
  `seatsAvailable` the request carried. It takes the default 0 only when
  the request left it unset (`Conferences.CreateConference`).
- An owner's update that puts another user's id in `organizerUserId` locks
  the conference. The former owner now fails the owner check. The new owner
  passes it, but the update transaction is not cross-group, and reading the
  new owner's profile leaves the conference's entity group, so the
  datastore refuses it (`Conferences.TransferLocksConference`).

## Model

| member | source | states |
|---|---|---|
| Filters.FormatFilters | conference.py:297-324 | The filter list is accepted exactly when every field and operator is in the tables and all inequalities are on one property. On success the output has the input's length and order, each triple is rewritten through `FIELDS`/`OPERATORS`, and the inequality field is the first inequality's property (None when every operator is "="). |
| Filters.FormatFiltersStopsAtFirstBadFilter | conference.py:302-322 | A rejected list fails at the first filter that breaks it. An unknown field or operator there gives the invalid-filter error, and a second inequality property gives the one-inequality-field error. |
| Filters.AcceptablePrefix | conference.py:302-322 | Every prefix of an accepted list is accepted, so the left-to-right loop cannot reject a filter that the whole list would allow. |
| Filters.FirstInequalityFieldIsUsed | conference.py:312-320 | The recorded inequality field exists exactly when some filter is an inequality, and it is the property of such a filter. |
| Filters.AcceptableWitness | conference.py:317-319 | An inequality on a property other than the one recorded from earlier filters makes the list unacceptable. |
| Filters.AcceptableExtend | conference.py:312-322 | Appending a known filter whose inequality, if any, matches the recorded property keeps the list acceptable. |
| Filters.ToConditions | conference.py:290-294 | The conversion loop succeeds exactly when every filter converts, and it keeps length and order. On failure it returns the error of the first filter that does not convert: every filter before it converts. |
| Filters.FirstFailureShifts | conference.py:290-294 | After a head that converts, the first failure of the tail is the first failure of the whole list. |
| Filters.GetQuery | conference.py:278-295 | The query exists exactly when the list is accepted and every `month`/`maxAttendees` value is text `int()` accepts. A refused list gives the error of the filter it fails at. An accepted list with a bad integer gives `NotAnInteger` for the leftmost value `int()` refuses. A query is ordered by (inequality property, name) or by name alone, with one AND-ed condition per filter; it converts integer properties and passes the others through unchanged. |
| Filters.FirstUnparsedRefused | conference.py:290-294 | The first filter of an accepted list that fails to convert is the leftmost integer-property filter whose value `int()` refuses, and the error carries that value. |
| Filters.ConditionsFollowFilters | conference.py:290-294 | Every condition of a converted list is the condition its filter asks for, and every integer value parsed. |
| Filters.UnparsedValueRefused | conference.py:291-292 | A filter whose value does not convert is an integer-property filter that `int()` refuses. |
| Filters.GetQueryKeepsIntegers | conference.py:291-293 | An integer filter sent as `str(n)` reaches the query as the integer `n`. |
| Filters.ExampleOneInequality | conference.py:284-294 | `MONTH EQ str(m)` with `MAX_ATTENDEES GT str(n)` is ordered by `maxAttendees` then name, and the values become the integers `m` and `n`. |
| Filters.ExampleTwoInequalityFields | conference.py:317-319 | Inequalities on `month` and `maxAttendees` together are refused. |
| Filters.ExampleSameInequalityField | conference.py:312-320 | Two inequalities on `city` are accepted, and the string values pass through. |
| Text.ParseIntRoundTrip | conference.py:292 | `int(str(i)) == i` for every integer. `int()` is modelled on the ASCII subset of its Python 2 grammar for unicode text: white space around the number, an optional sign, white space after the sign, then decimal digits. The white space is C's `isspace` set plus the separators U+001C to U+001F. |
| Text.ParsesAfterSeparator | conference.py:292 | The separator U+001C counts as white space: U+001C followed by the digits `d` parses to their value. |
| Text.ParsesBlankAfterSign | conference.py:292 | `int()` accepts blanks between the sign and the digits: `"- " + d` parses to minus the value of the digits `d`. |
| Text.JoinMentionsEach | conference.py:443-444 | Every name joined with ", " can be found in the joined text. |
| Text.ListReprMentionsEach | conference.py:928-930 | Every session name can be found in the rendered list of names. |
| Profiles.GetProfileFromUser | conference.py:369-391 | A signed-out caller is refused. A signed-in caller gets the stored profile, or a new one (nickname, email, `NOT_SPECIFIED`, no conferences) that is stored on the spot. |
| Profiles.DoProfile | conference.py:377-412 | A signed-out caller is refused with the store unchanged. A non-ASCII display name fails with `NotAscii` (the `UnicodeEncodeError` of `str()`), and the profile as fetched, possibly just created, stays stored. Otherwise only `displayName` (when truthy) and `teeShirtSize` (when given) change. The email and the attendance list keep their stored values, and the store differs only in the caller's profile. |
| Profiles.DoProfileIdempotent | conference.py:399-409 | Saving the same form twice leaves what saving it once does. |
| Conferences.WithDefaults | conference.py:46-51 | A `None` (or empty topics) field takes its `DEFAULTS` value. Given fields are kept, and the fields outside `DEFAULTS` are untouched. |
| Conferences.CreateConference | conference.py:139-189 | Errors come in order: signed out, then missing name. A new conference is stored under a fresh key; no other conference changes; one confirmation mail is queued. Defaults are filled, `month` is the start date's month or 0, and the seats equal `maxAttendees` when that is positive and otherwise keep the request's value. |
| Conferences.CreateConferencePreservesWf | conference.py:177-184 | The new key was never used, and every stored id stays below the allocator. |
| Conferences.ApplyUpdate | conference.py:216-226 | Each field the form carries is copied and each one it leaves out keeps its stored value; empty topics count as left out. This includes `organizerUserId`, so an update can name another user as the owner. Only the parent key (the organizer's profile) never changes. A start date sets `month` to its month; otherwise a given month is copied. An update that carries no field changes nothing. |
| Conferences.ApplyUpdateIdempotent | conference.py:216-226 | Applying the same update twice stores what applying it once does. |
| Conferences.UpdateConference | conference.py:191-229 | Errors come in order: signed out, not found, not the user in `organizerUserId`, then the cross-group refusal when that user is not the organizer the key descends from. The call succeeds exactly when the caller is both, with a stored profile. Only that conference changes, to the update of the stored one. |
| Conferences.TransferLocksConference | conference.py:191-228 | After an update that sets `organizerUserId` to another user, every user's next update fails: the named user's with the cross-group refusal, everyone else's as forbidden. |
| Registration.RegisterStep | conference.py:480-494 | "Already registered" is checked before "no seats". On success the key is appended, the counter drops by exactly 1 and stays non-negative, and a duplicate-free list stays duplicate-free. |
| Registration.UnregisterStep | conference.py:496-506 | The result is `True` exactly when the key was listed. Then the counter rises by exactly 1 and the first occurrence of the key is removed, the rest kept in order; otherwise nothing changes. No duplicate is introduced. |
| Registration.RemoveFirst | conference.py:502 | `list.remove` drops the first occurrence of a listed value and keeps the rest in order (so one copy fewer), and leaves a list without the value alone. |
| Registration.IndexOf | conference.py:502 | The position `list.remove` deletes at holds the value, and no earlier position does. |
| Registration.RemoveFirstKeepsNoDuplicates | conference.py:502 | Removing from a duplicate-free list leaves it duplicate-free and without the removed key. |
| Registration.RegisterFor | conference.py:480-494 | The register branch on the profile as the transaction sees it (stored or new). Both entities are written back with the key appended and the seat taken. |
| Registration.UnregisterFor | conference.py:496-510 | The unregister branch. The profile and the conference are written back even when nothing changed. |
| Registration.ConferenceRegistration | conference.py:466-511 | Errors come in order: signed out, then unknown conference, then the branch's own errors. An error changes nothing. |
| Registration.RegisterThenUnregisterRestores | conference.py:480-506 | Registering and then unregistering restores the caller's list and the seat count. The only trace is a profile created on the way. |
| Registration.RegisterTwiceRefused | conference.py:482-484 | A second registration by the same caller is refused. |
| Registration.LastSeatGoesToOneCaller | conference.py:466-494 | Two callers racing for the last seat: the first transaction gets it, the second sees "no seats", and the counter ends at 0. |
| Registration.RegistrationKeepsSeatsConsistent | conference.py:480-506 | From a state with duplicate-free lists and seats plus attendees equal to the capacity, every registration step keeps both. |
| Registration.SeatBounds | conference.py:487-493 | Under that accounting, 0 <= seats <= capacity. |
| Registration.CreatedConferenceConsistency | conference.py:170-172 | A new conference starts consistent exactly when its capacity is positive, or capacity and seats are both 0. |
| Registration.UpdateCanBreakSeatAccounting | conference.py:216-227 | The owner's update can set the counter to any value, breaking the accounting. |
| Announcements.NearlySoldOutFrom | conference.py:436-438 | The query returns exactly the conferences with 0 < seats <= 5. They are ordered by seats left, then by name, then by key: the organizer first, then the conference id. |
| Announcements.SortByIndex | conference.py:436-438 | Sorting a bucket of equal-seat conferences puts it in index order and keeps exactly its members. |
| Announcements.IndexBeforeTotal | conference.py:436-438 | Any two distinct conferences are ordered one way or the other. |
| Announcements.IndexBeforeTransitive | conference.py:436-438 | The index order is transitive. |
| Announcements.TwoNearlySoldOut | conference.py:436-438 | With exactly two nearly-sold-out conferences, the query returns them in datastore order. |
| Announcements.ExampleEqualSeatsByOrganizer | conference.py:436-438 | Conference 1 by "zed" and conference 2 by "amy", both named "Expo" with 3 seats left: amy's comes first. |
| Announcements.CacheAnnouncement | conference.py:432-452 | With any selected conference, the slot is set to the template filled with their names joined by ", ", and that text is returned. Otherwise the slot is deleted and "" is returned. |
| Announcements.AnnouncementRoundTrip | conference.py:445-460 | Reading the slot after a recomputation gives what the recomputation returned (an absent slot reads as ""). No other slot changes. |
| Announcements.AnnouncementEmptyIff | conference.py:436-452 | The announcement is "" exactly when no stored conference is nearly sold out. |
| Announcements.AnnouncementNamesEach | conference.py:436-444 | Every nearly-sold-out conference is named in the announcement. |
| Announcements.OnlyOneNearlySoldOut | conference.py:436-438 | With exactly one nearly-sold-out conference, the query returns it alone. |
| Announcements.ExampleOnlyNearlySoldOutAnnounced | conference.py:436-445 | Of conferences with 3, 0 and 10 seats, only the first is announced. |
| Sessions.ResolveSpeaker | conference.py:625-640 | An existing speaker with the given full name is reused. A new name stores a speaker under a second fresh id while the session gets the first one. Without a name there is no speaker. |
| Sessions.CreateSession | conference.py:572-654 | Errors come in order: signed out, no conference key, no name, unknown conference. When the conference already has a session of that name, nothing is stored, no task is queued and the request comes back unchanged. Otherwise exactly one session is stored, with `SESSION_DEFAULTS` for a missing duration or type, and one featured-speaker task carries (conference, speaker name, profession). |
| Sessions.CreateSessionIdempotent | conference.py:594-598 | Sending the same request again changes nothing and queues nothing. |
| Sessions.CreateSessionKeepsSessionNamesUnique | conference.py:594-598 | No conference ever gets two sessions with the same name. |
| Sessions.CreateSessionKeepsSpeakerNamesUnique | conference.py:626-640 | No second speaker with the same full name is ever stored. |
| Sessions.CreateSessionPreservesWf | conference.py:600-646 | Every stored id and every speaker reference stays below the allocator. |
| Sessions.NewSpeakerIsOrphaned | conference.py:629-637 | A session that brings a new speaker refers to a key under which no speaker is stored. |
| FeaturedSpeaker.CheckFeaturedSpeaker | conference.py:907-931 | An empty conference key is refused and an unknown one fails. When a speaker of that name exists, the notice naming it and all its sessions (in every conference) replaces the cached one; otherwise the cache is unchanged. There is no more-than-one-session check and no speaker creation. |
| FeaturedSpeaker.RunFeaturedSpeakerTask | main.py:46-54 | The handler passes the queued key and name to the recomputation; a missing name arrives as the text "None". |
| FeaturedSpeaker.FeaturedSpeakerRoundTrip | conference.py:923-943 | After a recomputation that finds the speaker, reading the notice gives the notice; otherwise the previous one (or ""). No other slot changes. |
| FeaturedSpeaker.CheckFeaturedSpeakerIdempotent | conference.py:907-931 | Recomputing twice leaves what recomputing once does. |
| FeaturedSpeaker.NoticeIgnoresConference | conference.py:926-927 | Which existing conference the task names makes no difference to the notice. |
| FeaturedSpeaker.NoticeNamesEachSession | conference.py:926-930 | Every session pointing at the speaker is named in the notice, whatever its conference. |
| FeaturedSpeaker.NewSpeakerSessionNotListed | conference.py:629-637 | After a session that creates its speaker, that speaker's notice lists no session at all. |
| FeaturedSpeaker.ReusedSpeakerSessionListed | conference.py:641-646 | A session whose speaker already existed is appended to that speaker's sessions. |
| FeaturedSpeaker.SecondSessionOnlyListed | conference.py:626-646 | Two sessions with the same new speaker: the notice lists only the second. |
| Wishlists.CreateWishListAsWritten | conference.py:762-803 | As written: the look-up is by the caller's profile as parent, but the entry is stored without a parent under another fresh id. A signed-out caller or an unknown session fails. |
| Wishlists.AsWrittenAddsDuplicates | conference.py:775-801 | As written, adding the same session twice stores two entries for it. |
| Wishlists.CreateWishList | conference.py:775-801 | Corrected: the entry is stored under the allocated key, with the profile as parent. A session already on the caller's wishlist is not added again. |
| Wishlists.CreateWishListKeepsEntriesUnique | conference.py:775-801 | Corrected: each profile keeps at most one entry per session, and ids stay below the allocator. |
| Wishlists.AddAllKeepsEntriesUnique | conference.py:775-801 | Corrected: after any sequence of additions, repeated sessions included, each profile has at most one entry per session. |
| Wishlists.CreateWishListIdempotent | conference.py:775-801 | Corrected: adding the same session twice stores what adding it once does. |

## Left out

- I/O:
  - the confirmation e-mail and the webapp2 handlers in main.py (except the featured-speaker handler's parameter passing);
  - the Cloud Endpoints decorators and request containers;
  - OAuth.
  The caller is an input (`Option<User>`).
- ndb, memcache and taskqueue as services: they are a map-based store, a cache map and a task sequence. Eventual consistency, cache eviction and task retries are not modelled.
- Concurrency between requests: the transactional endpoints are one atomic step. The session and speaker check-then-create races, which run outside a transaction, are not modelled.
- `datetime.strptime`: dates and times are given already parsed. The `[:10]` slicing and parse errors are not modelled.
- Malformed websafe keys: a key is the id it encodes, so `ndb.Key(urlsafe=...)` cannot fail. An unknown id fails like the missing entity it names.
- Registration.RegisterStep: the attendance list stores websafe strings and "already registered" compares strings (conference.py:482, 500). `ndb.Key(urlsafe=...)` accepts a padded and an unpadded spelling of the same key, so one user could take two seats by sending both. The model has one spelling per key, so `Registration.RegisterTwiceRefused` and the duplicate-free lists rely on that.
- Filters.GetQuery: `int()` on a unicode value also accepts non-ASCII Unicode white space (such as U+0085, U+00A0 and U+3000) and Unicode decimal digits (such as U+0665), which Python 2 converts before parsing. The model parses only ASCII white space (C's `isspace` set and U+001C to U+001F) and ASCII digits, so it returns `NotAnInteger` for such values where the source builds a query.
- Filters.GetQuery: a filter value is always text. An unset value (`None`) is not modelled: for `MONTH` and `MAX_ATTENDEES`, `int(None)` raises `TypeError`, and for `CITY` and `TOPIC` the query compares the property with `None`.
- Filters.GetQuery: the datastore's own refusal of a query (for example, an inequality property not ordered first) and query execution are not modelled.
- Announcements.NearlySoldOutFrom: the order assumes that the projection on `name` is answered from a composite index on (`seatsAvailable`, `name`). Index definitions are not part of this model. Names and user ids compare by code point, which is the order of their UTF-8 bytes.
- FeaturedSpeaker.CheckFeaturedSpeaker: the speaker's sessions are listed in session-id order. The datastore orders that query by full key, whose path starts with the organizer and the conference; for sessions of one conference the two orders agree.
- Conferences.ApplyUpdate: the order in which `all_fields()` visits the form's fields is not modelled, because the form class is not part of this model. The model lets a start date's month win over an explicit `month` in the same request.
- Text.ListRepr: Python's `repr` escaping of quotes and non-ASCII characters inside names is not modelled; names are rendered as `u'name'`.
- Form copies (`_copyConferenceToForm` and the other `_copy...ToForm` functions), the read-only listing endpoints, `getSessionsBySpeaker` (it refers to undefined names) and `filterPlayground` (hard-coded): mechanical marshalling or broken code.
- `getAnnouncement` and `getFeaturedSpeaker` read a slot and fall back to "" when it is empty or missing. They have no contract of their own; `Announcements.AnnouncementRoundTrip` and `FeaturedSpeaker.FeaturedSpeakerRoundTrip` state what they return.

## Findings

| source | as written | input that shows it | evidently intended | confidence | as-written member | corrected member |
|---|---|---|---|---|---|---|
| conference.py:775-801 | The duplicate check queries wishlist entries whose ancestor is the caller's profile. The new entry is then stored with `WishList(**dict_data).put()`: no key and no parent, although a key under the profile was just allocated for it. The check never finds an earlier entry. | The same signed-in user adds the same existing session twice. | At most one wishlist entry per (profile, session), with the entry stored under the allocated key whose parent is the profile. | high; not executed | Wishlists.AsWrittenAddsDuplicates | Wishlists.AddAllKeepsEntriesUnique |

=== FILE: announcements.dfy ===
/** The "nearly sold out" announcement: its recomputation into the cache
    (`_cacheAnnouncement`, conference.py:432-452) and its read
    (`getAnnouncement`, conference.py:457-460). */
module Announcements {
  import opened Common
  import opened Text
  import opened Datastore

  /** `MEMCACHE_ANNOUNCEMENTS_KEY`. */
  const ANNOUNCEMENTS_KEY: string := "RECENT_ANNOUNCEMENTS"

  /** `ANNOUNCEMENT_TPL` without its `%s`. */
  const ANNOUNCEMENT_PREFIX: string := "Last chance to attend! The following conferences are nearly sold out: "

  datatype Announced = Announced(cache: Cache, announcement: string)

  /** A conference is nearly sold out when it has between one and five seats left. */
  predicate NearlySoldOut(c: Conference) {
    0 < c.seatsAvailable <= 5
  }

  /** Conference `k` is stored under an allocated id, nearly sold out, and
      has at least `seats` seats left. */
  predicate Selected(st: Store, k: Id, seats: int) {
    k < st.nextId && k in st.conferences && NearlySoldOut(st.conferences[k])
    && st.conferences[k].seatsAvailable >= seats
  }

  /** Order of two conferences with the same seat count. The projection on
      `name` is answered from the composite index on (`seatsAvailable`,
      `name`), whose entries sort by seats, then by name, then by key; a
      conference key sorts by its organizer's profile id (the parent), then
      by its own id. */
  predicate IndexBefore(st: Store, a: Id, b: Id)
    requires a in st.conferences && b in st.conferences
  {
    var x := st.conferences[a];
    var y := st.conferences[b];
    StrLess(x.name, y.name)
    || (x.name == y.name && (StrLess(x.organizer, y.organizer) || (x.organizer == y.organizer && a < b)))
  }

  lemma IndexBeforeIrreflexive(st: Store, a: Id)
    requires a in st.conferences
    ensures !IndexBefore(st, a, a)
  {
    StrLessIrreflexive(st.conferences[a].name);
    StrLessIrreflexive(st.conferences[a].organizer);
  }

  lemma IndexBeforeTransitive(st: Store, a: Id, b: Id, c: Id)
    requires a in st.conferences && b in st.conferences && c in st.conferences
    requires IndexBefore(st, a, b) && IndexBefore(st, b, c)
    ensures IndexBefore(st, a, c)
  {
    var x, y, z := st.conferences[a], st.conferences[b], st.conferences[c];
    if StrLess(x.name, y.name) && StrLess(y.name, z.name) {
      StrLessTransitive(x.name, y.name, z.name);
    } else if StrLess(x.organizer, y.organizer) && StrLess(y.organizer, z.organizer) {
      StrLessTransitive(x.organizer, y.organizer, z.organizer);
    }
  }

  lemma IndexBeforeTotal(st: Store, a: Id, b: Id)
    requires a in st.conferences && b in st.conferences
    ensures a == b || IndexBefore(st, a, b) || IndexBefore(st, b, a)
  {
    StrLessTotal(st.conferences[a].name, st.conferences[b].name);
    StrLessTotal(st.conferences[a].organizer, st.conferences[b].organizer);
  }

  /** `ids` are stored conferences listed in index order. */
  predicate InIndexOrder(st: Store, ids: seq<Id>) {
    && (forall i :: 0 <= i < |ids| ==> ids[i] in st.conferences)
    && (forall i, j :: 0 <= i < j < |ids| ==> IndexBefore(st, ids[i], ids[j]))
  }

  /** Place `x` among `ids` by index order. */
  function InsertByIndex(st: Store, x: Id, ids: seq<Id>): (r: seq<Id>)
    requires x in st.conferences && x !in ids && InIndexOrder(st, ids)
    ensures InIndexOrder(st, r)
    ensures forall k :: k in r <==> k == x || k in ids
    decreases |ids|
  {
    if |ids| == 0 then [x]
    else if IndexBefore(st, x, ids[0]) then
      InsertFront(st, x, ids);
      [x] + ids
    else
      IndexBeforeTotal(st, x, ids[0]);
      var rest := InsertByIndex(st, x, ids[1..]);
      InsertBehind(st, ids, rest, x);
      [ids[0]] + rest
  }

  lemma InsertFront(st: Store, x: Id, ids: seq<Id>)
    requires x in st.conferences && |ids| > 0 && InIndexOrder(st, ids) && IndexBefore(st, x, ids[0])
    ensures InIndexOrder(st, [x] + ids)
  {
    var r := [x] + ids;
    forall i, j | 0 <= i < j < |r|
      ensures IndexBefore(st, r[i], r[j])
    {
      if i == 0 && j > 1 {
        IndexBeforeTransitive(st, x, ids[0], ids[j - 1]);
      }
    }
  }

  lemma InsertBehind(st: Store, ids: seq<Id>, rest: seq<Id>, x: Id)
    requires |ids| > 0 && InIndexOrder(st, ids) && InIndexOrder(st, rest)
    requires x in st.conferences && IndexBefore(st, ids[0], x)
    requires forall k :: k in rest <==> k == x || k in ids[1..]
    ensures InIndexOrder(st, [ids[0]] + rest)
  {
    var r := [ids[0]] + rest;
    forall j | 0 < j < |r|
      ensures IndexBefore(st, ids[0], r[j])
    {
      assert r[j] in rest;
      if r[j] != x {
        var m :| 0 <= m < |ids[1..]| && ids[1..][m] == r[j];
        assert ids[m + 1] == r[j];
      }
    }
  }

  /** The ids of a bucket (in id order, each once) sorted into index order. */
  function SortByIndex(st: Store, ids: seq<Id>): (r: seq<Id>)
    requires forall i :: 0 <= i < |ids| ==> ids[i] in st.conferences
    requires forall i, j :: 0 <= i < j < |ids| ==> ids[i] < ids[j]
    ensures InIndexOrder(st, r)
    ensures forall k :: k in r <==> k in ids
    decreases |ids|
  {
    if |ids| == 0 then []
    else
      var rest := SortByIndex(st, ids[1..]);
      assert ids[0] !in ids[1..] by {
        forall m | 0 <= m < |ids[1..]| ensures ids[1..][m] != ids[0] {
          assert ids[1..][m] == ids[m + 1];
        }
      }
      InsertByIndex(st, ids[0], rest)
  }

  /** The datastore returns conference `a` before `b`: fewer seats left
      first, and in index order among equals. */
  predicate Precedes(st: Store, a: Id, b: Id) {
    a in st.conferences && b in st.conferences &&
    var x := st.conferences[a].seatsAvailable;
    var y := st.conferences[b].seatsAvailable;
    x < y || (x == y && IndexBefore(st, a, b))
  }

  /** The nearly-sold-out conferences with at least `seats` seats left, in the
      order the datastore returns them for the inequality query on
      `seatsAvailable`: by seats left, then by name, then by key. */
  function NearlySoldOutFrom(st: Store, seats: int): (r: seq<Id>)
    requires seats >= 1
    ensures forall i :: 0 <= i < |r| ==> Selected(st, r[i], seats)
    ensures forall k :: Selected(st, k, seats) ==> k in r
    ensures forall i, j :: 0 <= i < j < |r| ==> Precedes(st, r[i], r[j])
    decreases 6 - seats
  {
    if seats > 5 then []
    else
      var found := IdsWhere(st.conferences, (c: Conference) => c.seatsAvailable == seats, st.nextId);
      var bucket := SortByIndex(st, found);
      SortedBucket(st, seats, found, bucket);
      var rest := NearlySoldOutFrom(st, seats + 1);
      BucketThenRest(st, seats, bucket, rest);
      bucket + rest
  }

  /** Sorting the query's bucket keeps exactly its conferences. */
  lemma SortedBucket(st: Store, seats: int, found: seq<Id>, bucket: seq<Id>)
    requires forall i :: 0 <= i < |found| ==>
      found[i] < st.nextId && found[i] in st.conferences && st.conferences[found[i]].seatsAvailable == seats
    requires forall k :: 0 <= k < st.nextId && k in st.conferences && st.conferences[k].seatsAvailable == seats ==>
      k in found
    requires forall k :: k in bucket <==> k in found
    ensures forall i :: 0 <= i < |bucket| ==>
      bucket[i] < st.nextId && bucket[i] in st.conferences && st.conferences[bucket[i]].seatsAvailable == seats
    ensures forall k :: 0 <= k < st.nextId && k in st.conferences && st.conferences[k].seatsAvailable == seats ==>
      k in bucket
  {
    forall i | 0 <= i < |bucket|
      ensures bucket[i] < st.nextId && bucket[i] in st.conferences && st.conferences[bucket[i]].seatsAvailable == seats
    {
      assert bucket[i] in found;
    }
  }

  /** The bucket of conferences with exactly `seats` seats left, followed by
      those with more, is the selection from `seats` up, in datastore order. */
  lemma BucketThenRest(st: Store, seats: int, bucket: seq<Id>, rest: seq<Id>)
    requires 0 < seats <= 5
    requires forall i :: 0 <= i < |bucket| ==>
      bucket[i] < st.nextId && bucket[i] in st.conferences && st.conferences[bucket[i]].seatsAvailable == seats
    requires forall k :: 0 <= k < st.nextId && k in st.conferences && st.conferences[k].seatsAvailable == seats ==>
      k in bucket
    requires InIndexOrder(st, bucket)
    requires forall i :: 0 <= i < |rest| ==> Selected(st, rest[i], seats + 1)
    requires forall k :: Selected(st, k, seats + 1) ==> k in rest
    requires forall i, j :: 0 <= i < j < |rest| ==> Precedes(st, rest[i], rest[j])
    ensures forall i :: 0 <= i < |bucket + rest| ==> Selected(st, (bucket + rest)[i], seats)
    ensures forall k :: Selected(st, k, seats) ==> k in bucket + rest
    ensures forall i, j :: 0 <= i < j < |bucket + rest| ==> Precedes(st, (bucket + rest)[i], (bucket + rest)[j])
  {
    var r := bucket + rest;
    forall k | Selected(st, k, seats) ensures k in r {
      if st.conferences[k].seatsAvailable == seats {
        assert k in bucket;
      } else {
        assert Selected(st, k, seats + 1);
      }
    }
    forall i, j | 0 <= i < j < |r| ensures Precedes(st, r[i], r[j]) {
      if j < |bucket| {
        assert IndexBefore(st, bucket[i], bucket[j]);
      } else if i >= |bucket| {
        assert Precedes(st, rest[i - |bucket|], rest[j - |bucket|]);
      } else {
        assert Selected(st, rest[j - |bucket|], seats + 1);
      }
    }
  }

  /** The ids the announcement query returns. */
  function NearlySoldOutIds(st: Store): seq<Id> {
    NearlySoldOutFrom(st, 1)
  }

  /** The names of the conferences under `ids`, in order. */
  function Names(st: Store, ids: seq<Id>): (r: seq<string>)
    requires forall i :: 0 <= i < |ids| ==> ids[i] in st.conferences
    ensures |r| == |ids|
    ensures forall i :: 0 <= i < |ids| ==> r[i] == st.conferences[ids[i]].name
  {
    if |ids| == 0 then [] else [st.conferences[ids[0]].name] + Names(st, ids[1..])
  }

  /** `_cacheAnnouncement`: when some conference is nearly sold out, store
      the template filled with their names, comma-separated, in the
      announcement slot and return it; otherwise delete the slot and return "". */
  function CacheAnnouncement(st: Store, cache: Cache): (r: Announced)
    ensures |NearlySoldOutIds(st)| == 0 ==> r.announcement == "" && r.cache == cache - {ANNOUNCEMENTS_KEY}
    ensures |NearlySoldOutIds(st)| > 0 ==>
      r.announcement == ANNOUNCEMENT_PREFIX + Join(", ", Names(st, NearlySoldOutIds(st)))
      && r.cache == cache[ANNOUNCEMENTS_KEY := r.announcement]
  {
    var ids := NearlySoldOutIds(st);
    if |ids| > 0 then
      var text := ANNOUNCEMENT_PREFIX + Join(", ", Names(st, ids));
      Announced(cache[ANNOUNCEMENTS_KEY := text], text)
    else
      Announced(cache - {ANNOUNCEMENTS_KEY}, "")
  }

  /** `getAnnouncement`: the cached text, or "" when the slot is empty. */
  function GetAnnouncement(cache: Cache): string {
    if ANNOUNCEMENTS_KEY in cache then cache[ANNOUNCEMENTS_KEY] else ""
  }

  /** Reading the slot right after a recomputation returns what the
      recomputation returned, and no other slot was touched. */
  lemma AnnouncementRoundTrip(st: Store, cache: Cache)
    ensures GetAnnouncement(CacheAnnouncement(st, cache).cache) == CacheAnnouncement(st, cache).announcement
    ensures forall slot :: slot != ANNOUNCEMENTS_KEY ==>
      (slot in CacheAnnouncement(st, cache).cache <==> slot in cache)
    ensures forall slot :: slot != ANNOUNCEMENTS_KEY && slot in cache ==>
      CacheAnnouncement(st, cache).cache[slot] == cache[slot]
  {
  }

  /** The announcement is empty exactly when no stored conference is nearly
      sold out (every stored id is below the allocator). */
  lemma AnnouncementEmptyIff(st: Store, cache: Cache)
    requires st.Wf()
    ensures CacheAnnouncement(st, cache).announcement == "" <==>
      forall k :: k in st.conferences ==> !NearlySoldOut(st.conferences[k])
  {
    var ids := NearlySoldOutIds(st);
    if |ids| > 0 {
      assert |CacheAnnouncement(st, cache).announcement| >= |ANNOUNCEMENT_PREFIX|;
      assert NearlySoldOut(st.conferences[ids[0]]);
    } else {
      forall k | k in st.conferences
        ensures !NearlySoldOut(st.conferences[k])
      {
        assert Selected(st, k, 1) ==> k in ids;
      }
    }
  }

  /** Every nearly-sold-out conference is named in the announcement. */
  lemma AnnouncementNamesEach(st: Store, cache: Cache, k: Id)
    requires st.Wf()
    requires k in st.conferences && NearlySoldOut(st.conferences[k])
    ensures IsInfix(st.conferences[k].name, CacheAnnouncement(st, cache).announcement)
  {
    var ids := NearlySoldOutIds(st);
    assert k in ids;
    var i :| 0 <= i < |ids| && ids[i] == k;
    var names := Names(st, ids);
    JoinMentionsEach(", ", names, i);
    InfixOfSuffix(names[i], ANNOUNCEMENT_PREFIX, Join(", ", names));
  }

  /** When exactly one stored conference is nearly sold out, the query
      returns it alone. */
  lemma OnlyOneNearlySoldOut(st: Store, k: Id)
    requires Selected(st, k, 1)
    requires forall j :: Selected(st, j, 1) ==> j == k
    ensures NearlySoldOutIds(st) == [k]
  {
    var ids := NearlySoldOutIds(st);
    assert k in ids;
    assert forall i :: 0 <= i < |ids| ==> ids[i] == k by {
      forall i | 0 <= i < |ids| ensures ids[i] == k {
        assert Selected(st, ids[i], 1);
      }
    }
    assert |ids| <= 1 by {
      IndexBeforeIrreflexive(st, k);
      assert |ids| > 1 ==> Precedes(st, ids[0], ids[1]);
    }
  }

  /** Conferences with 3, 0 and 10 seats left: only the first is announced,
      and the announcement is exactly the template filled with its name. */
  lemma ExampleOnlyNearlySoldOutAnnounced(st: Store, cache: Cache)
    requires st.nextId == 3
    requires st.conferences.Keys == {0, 1, 2}
    requires st.conferences[0].name == "A" && st.conferences[0].seatsAvailable == 3
    requires st.conferences[1].name == "B" && st.conferences[1].seatsAvailable == 0
    requires st.conferences[2].name == "C" && st.conferences[2].seatsAvailable == 10
    ensures CacheAnnouncement(st, cache).announcement == ANNOUNCEMENT_PREFIX + "A"
  {
    OnlyOneNearlySoldOut(st, 0);
    assert Names(st, [0]) == ["A"];
  }

  /** When exactly two stored conferences are nearly sold out, the query
      returns both, the one the datastore orders first in front. */
  lemma TwoNearlySoldOut(st: Store, a: Id, b: Id)
    requires Selected(st, a, 1) && Selected(st, b, 1) && a != b
    requires forall j :: Selected(st, j, 1) ==> j == a || j == b
    requires Precedes(st, a, b)
    ensures NearlySoldOutIds(st) == [a, b]
  {
    var ids := NearlySoldOutIds(st);
    TwoInOrder(st, ids, a, b);
  }

  lemma TwoInOrder(st: Store, ids: seq<Id>, a: Id, b: Id)
    requires forall i :: 0 <= i < |ids| ==> Selected(st, ids[i], 1)
    requires forall k :: Selected(st, k, 1) ==> k in ids
    requires forall i, j :: 0 <= i < j < |ids| ==> Precedes(st, ids[i], ids[j])
    requires Selected(st, a, 1) && Selected(st, b, 1) && a != b
    requires forall j :: Selected(st, j, 1) ==> j == a || j == b
    requires Precedes(st, a, b)
    ensures ids == [a, b]
  {
    var ia :| 0 <= ia < |ids| && ids[ia] == a;
    var ib :| 0 <= ib < |ids| && ids[ib] == b;
    assert |ids| <= 2 by {
      if |ids| > 2 {
        assert Selected(st, ids[0], 1) && Selected(st, ids[1], 1) && Selected(st, ids[2], 1);
        PrecedesDistinct(st, ids[0], ids[1]);
        PrecedesDistinct(st, ids[0], ids[2]);
        PrecedesDistinct(st, ids[1], ids[2]);
      }
    }
    assert Selected(st, ids[0], 1) && Selected(st, ids[1], 1);
    PrecedesDistinct(st, ids[0], ids[1]);
    PrecedesAsymmetric(st, a, b);
    assert ids == [ids[0], ids[1]];
  }

  /** Two conferences named "Expo" with 3 seats left each, the first by
      "zed" and the second by "amy": the query returns amy's first, because
      the key path starts with the organizer's profile. */
  lemma ExampleEqualSeatsByOrganizer(st: Store)
    requires st.conferences.Keys == {1, 2} && st.nextId > 2
    requires st.conferences[1].name == "Expo" && st.conferences[1].organizer == "zed"
    requires st.conferences[2].name == "Expo" && st.conferences[2].organizer == "amy"
    requires st.conferences[1].seatsAvailable == 3 && st.conferences[2].seatsAvailable == 3
    ensures NearlySoldOutIds(st) == [2, 1]
  {
    assert Selected(st, 1, 1) && Selected(st, 2, 1);
    AmyBeforeZed(st);
    TwoNearlySoldOut(st, 2, 1);
  }

  lemma AmyBeforeZed(st: Store)
    requires st.conferences.Keys == {1, 2}
    requires st.conferences[1].name == st.conferences[2].name
    requires st.conferences[1].organizer == "zed" && st.conferences[2].organizer == "amy"
    requires st.conferences[1].seatsAvailable == st.conferences[2].seatsAvailable
    ensures Precedes(st, 2, 1) && !Precedes(st, 1, 2)
  {
    StrLessIrreflexive(st.conferences[1].name);
    assert StrLess("amy", "zed");
    assert !StrLess("zed", "amy");
  }

  lemma PrecedesAsymmetric(st: Store, a: Id, b: Id)
    requires Precedes(st, a, b)
    ensures !Precedes(st, b, a)
  {
    if Precedes(st, b, a) {
      IndexBeforeTransitive(st, a, b, a);
      IndexBeforeIrreflexive(st, a);
    }
  }

  lemma PrecedesDistinct(st: Store, a: Id, b: Id)
    requires Precedes(st, a, b)
    ensures a != b
  {
    IndexBeforeIrreflexive(st, a);
  }
}

=== FILE: common.dfy ===
/** Failure-compatible wrappers and the error kinds the conference API raises.

    Every operation of the API returns a `Result`. An `Err` carries no new
    state, so a failed call never leaves a partial write behind: this is the
    all-or-nothing behaviour of the transactional endpoints, and most other
    endpoints raise all their errors before their first write. The one
    exception, a profile save that fails after a new profile was stored,
    returns the store next to its `Result` (`Profiles.ProfileOutcome`). */
module Common {

  datatype Option<+T> = None | Some(value: T) {
    /** The value if there is one, else `current`: a field copied from a
        request only when the request sets it. */
    function Or(current: T): T {
      if Some? then value else current
    }
  }

  /** The exceptions the API surfaces. The first group are the endpoint
      exceptions raised on purpose; the last four are runtime errors the
      code does not catch (the caller sees a server error). */
  datatype ApiError =
    | Unauthorized                  // no authenticated caller
    | MissingField(field: string)   // BadRequest "'<field>' field required"
    | InvalidFilter                 // BadRequest: unknown filter field or operator
    | MultipleInequalityFields      // BadRequest: inequality on a second field
    | InvalidKey                    // BadRequest: empty conference key handed to a task
    | NotFound                      // NotFound: no conference with that key
    | Forbidden                     // Forbidden: caller does not own the conference
    | AlreadyRegistered             // Conflict: already registered
    | NoSeatsAvailable              // Conflict: no seats left
    | NotAnInteger(text: string)    // uncaught ValueError from int(text)
    | NotAscii(text: string)        // uncaught UnicodeEncodeError from str(text)
    | MissingEntity                 // uncaught AttributeError on a key that resolved to None
    | CrossGroup                    // uncaught BadRequestError: a read outside a single-group transaction's entity group

  datatype Result<+T> = Ok(value: T) | Err(error: ApiError) {

    predicate IsFailure() {
      Err?
    }

    function PropagateFailure<U>(): Result<U>
      requires Err?
    {
      Err(error)
    }

    function Extract(): T
      requires Ok?
    {
      value
    }
  }

  /** Python truthiness of an optional string: None and "" are both false. */
  predicate Present(s: Option<string>) {
    s.Some? && s.value != ""
  }
}

=== FILE: conferences.dfy ===
/** Conference creation (`_createConferenceObject`, conference.py:139-189)
    and the owner-only partial update (`_updateConferenceObject`,
    conference.py:192-229). */
module Conferences {
  import opened Common
  import opened Datastore

  // `DEFAULTS` (conference.py:46-51)
  const DEFAULT_CITY: string := "Default City"
  const DEFAULT_MAX_ATTENDEES: int := 0
  const DEFAULT_SEATS_AVAILABLE: int := 0
  const DEFAULT_TOPICS: seq<string> := ["Default", "Topic"]

  datatype Created = Created(store: Store, tasks: seq<Task>, key: Id, form: ConferenceForm)

  datatype Updated = Updated(store: Store, conference: Conference, organizerDisplayName: string)

  /** The request after the `DEFAULTS` loop: a field that is `None` (or the
      empty list, for topics) takes its default value. */
  function WithDefaults(form: ConferenceForm): (r: ConferenceForm)
    ensures r.city.Some? && r.maxAttendees.Some? && r.seatsAvailable.Some? && |r.topics| > 0
    ensures form.city.Some? ==> r.city == form.city
    ensures form.maxAttendees.Some? ==> r.maxAttendees == form.maxAttendees
    ensures form.seatsAvailable.Some? ==> r.seatsAvailable == form.seatsAvailable
    ensures |form.topics| > 0 ==> r.topics == form.topics
    ensures r.(city := form.city, maxAttendees := form.maxAttendees,
               seatsAvailable := form.seatsAvailable, topics := form.topics) == form
  {
    form.(
      city := if form.city.None? then Some(DEFAULT_CITY) else form.city,
      maxAttendees := if form.maxAttendees.None? then Some(DEFAULT_MAX_ATTENDEES) else form.maxAttendees,
      seatsAvailable := if form.seatsAvailable.None? then Some(DEFAULT_SEATS_AVAILABLE) else form.seatsAvailable,
      topics := if |form.topics| == 0 then DEFAULT_TOPICS else form.topics)
  }

  /** The month a conference is filed under: its start date's, or 0. */
  function MonthOf(startDate: Option<Date>): int {
    if startDate.Some? then startDate.value.month else 0
  }

  /** `_createConferenceObject`: store a new conference under the caller's
      profile key with a freshly allocated id, and queue the confirmation
      mail. `seatsAvailable` starts at `maxAttendees` when that is positive;
      otherwise it keeps the request's value (0 when unset). */
  function CreateConference(st: Store, tasks: seq<Task>, user: Option<User>, form: ConferenceForm): (r: Result<Created>)
    ensures user.None? ==> r == Err(Unauthorized)
    ensures user.Some? && !Present(form.name) ==> r == Err(MissingField("name"))
    ensures user.Some? && Present(form.name) <==> r.Ok?
    ensures r.Ok? ==> r.value.key == st.nextId && r.value.store.nextId == st.nextId + 1
    ensures r.Ok? ==> r.value.store == st.(conferences := r.value.store.conferences, nextId := st.nextId + 1)
    ensures r.Ok? ==> r.value.store.conferences.Keys == st.conferences.Keys + {r.value.key}
    ensures r.Ok? ==> forall k :: k in st.conferences && k != r.value.key ==>
      r.value.store.conferences[k] == st.conferences[k]
    ensures r.Ok? ==>
      var c := r.value.store.conferences[r.value.key];
      var maxAttendees := if form.maxAttendees.Some? then form.maxAttendees.value else DEFAULT_MAX_ATTENDEES;
      && c.name == form.name.value
      && c.organizer == user.value.id && c.organizerUserId == user.value.id
      && c.city == (if form.city.Some? then form.city.value else DEFAULT_CITY)
      && c.topics == (if |form.topics| > 0 then form.topics else DEFAULT_TOPICS)
      && c.month == MonthOf(form.startDate)
      && c.maxAttendees == maxAttendees
      && c.seatsAvailable == (if maxAttendees > 0 then maxAttendees
                              else if form.seatsAvailable.Some? then form.seatsAvailable.value
                              else DEFAULT_SEATS_AVAILABLE)
    ensures r.Ok? ==> r.value.tasks == tasks + [ConfirmationEmail(user.value.email, r.value.form)]
    ensures r.Ok? ==> r.value.form == WithDefaults(form).(organizerUserId := Some(user.value.id))
  {
    if user.None? then Err(Unauthorized)
    else if !Present(form.name) then Err(MissingField("name"))
    else
      var u := user.value;
      var filled := WithDefaults(form).(organizerUserId := Some(u.id));
      var maxAttendees := filled.maxAttendees.value;
      var conf := Conference(
        u.id, form.name.value, form.description, u.id, filled.topics, filled.city.value,
        form.startDate, MonthOf(form.startDate), form.endDate, maxAttendees,
        if maxAttendees > 0 then maxAttendees else filled.seatsAvailable.value);
      var key := st.nextId;
      Ok(Created(
        st.(conferences := st.conferences[key := conf], nextId := key + 1),
        tasks + [ConfirmationEmail(u.email, filled)],
        key,
        filled))
  }

  /** Creation keeps every id below the allocator and never reuses one. */
  lemma CreateConferencePreservesWf(st: Store, tasks: seq<Task>, user: Option<User>, form: ConferenceForm)
    requires st.Wf()
    requires CreateConference(st, tasks, user, form).Ok?
    ensures CreateConference(st, tasks, user, form).value.store.Wf()
    ensures CreateConference(st, tasks, user, form).value.key !in st.conferences
  {
  }

  /** A field after the update: the request's value when it carries one,
      the stored value otherwise. */
  predicate CopiedIfGiven<T(==)>(given: Option<T>, stored: T, updated: T) {
    if given.Some? then updated == given.value else updated == stored
  }

  /** The same for a field the entity itself may leave unset. */
  predicate OptionalCopiedIfGiven<T(==)>(given: Option<T>, stored: Option<T>, updated: Option<T>) {
    if given.Some? then updated == given else updated == stored
  }

  /** The copy loop of `_updateConferenceObject`: every field the request
      carries (not `None`, not the empty list) overwrites the stored one, and
      a start date also sets `month`. `organizerUserId` is copied like any
      other field, so an update can name another user as the owner (see
      `TransferLocksConference`); the parent key (`organizer`) never changes. The order in which the fields are
      visited comes from the form class, which is not part of this model; the
      model lets the start date's month win over an explicit `month`. */
  function ApplyUpdate(c: Conference, form: ConferenceForm): (r: Conference)
    ensures r.organizer == c.organizer
    ensures CopiedIfGiven(form.name, c.name, r.name)
    ensures OptionalCopiedIfGiven(form.description, c.description, r.description)
    ensures CopiedIfGiven(form.organizerUserId, c.organizerUserId, r.organizerUserId)
    ensures CopiedIfGiven(if |form.topics| > 0 then Some(form.topics) else None, c.topics, r.topics)
    ensures CopiedIfGiven(form.city, c.city, r.city)
    ensures OptionalCopiedIfGiven(form.startDate, c.startDate, r.startDate)
    ensures OptionalCopiedIfGiven(form.endDate, c.endDate, r.endDate)
    ensures CopiedIfGiven(form.maxAttendees, c.maxAttendees, r.maxAttendees)
    ensures CopiedIfGiven(form.seatsAvailable, c.seatsAvailable, r.seatsAvailable)
    ensures r.month == (if form.startDate.Some? then form.startDate.value.month
                        else if form.month.Some? then form.month.value else c.month)
    ensures form == ConferenceForm(None, None, None, [], None, None, None, None, None, None) ==> r == c
  {
    Conference(
      c.organizer,
      form.name.Or(c.name),
      if form.description.Some? then form.description else c.description,
      form.organizerUserId.Or(c.organizerUserId),
      if |form.topics| > 0 then form.topics else c.topics,
      form.city.Or(c.city),
      if form.startDate.Some? then form.startDate else c.startDate,
      if form.startDate.Some? then form.startDate.value.month else form.month.Or(c.month),
      if form.endDate.Some? then form.endDate else c.endDate,
      form.maxAttendees.Or(c.maxAttendees),
      form.seatsAvailable.Or(c.seatsAvailable))
  }

  /** Applying the same update twice stores what applying it once does. */
  lemma ApplyUpdateIdempotent(c: Conference, form: ConferenceForm)
    ensures ApplyUpdate(ApplyUpdate(c, form), form) == ApplyUpdate(c, form)
  {
  }

  /** `_updateConferenceObject`, one transaction that is not cross-group:
      it may touch only the entity group of the conference, whose root is the
      profile of the conference's organizer (its parent key). Only the user
      named in `organizerUserId` passes the owner check. After the write the
      reply reads the caller's profile. For the parent organizer that read
      stays in the group, and a missing profile raises, rolling the write
      back. For anyone else the read leaves the group; the datastore refuses
      it, and the transaction rolls the write back. */
  function UpdateConference(st: Store, user: Option<User>, key: Id, form: ConferenceForm): (r: Result<Updated>)
    ensures user.None? ==> r == Err(Unauthorized)
    ensures user.Some? && key !in st.conferences ==> r == Err(NotFound)
    ensures user.Some? && key in st.conferences && user.value.id != st.conferences[key].organizerUserId ==>
      r == Err(Forbidden)
    ensures user.Some? && key in st.conferences && user.value.id == st.conferences[key].organizerUserId
            && user.value.id != st.conferences[key].organizer ==>
      r == Err(CrossGroup)
    ensures r.Ok? <==>
      user.Some? && key in st.conferences && user.value.id == st.conferences[key].organizerUserId
      && user.value.id == st.conferences[key].organizer && user.value.id in st.profiles
    ensures r.Ok? ==> r.value.store == st.(conferences := st.conferences[key := r.value.conference])
    ensures r.Ok? ==> r.value.conference == ApplyUpdate(st.conferences[key], form)
    ensures r.Ok? ==> r.value.organizerDisplayName == st.profiles[user.value.id].displayName
  {
    if user.None? then Err(Unauthorized)
    else if key !in st.conferences then Err(NotFound)
    else if user.value.id != st.conferences[key].organizerUserId then Err(Forbidden)
    else
      var conf := ApplyUpdate(st.conferences[key], form);
      if user.value.id != conf.organizer then Err(CrossGroup)
      else
        match GetProfile(st, user.value.id)
        case None => Err(MissingEntity)
        case Some(prof) => Ok(Updated(st.(conferences := st.conferences[key := conf]), conf, prof.displayName))
  }

  /** An update carrying another user's id in `organizerUserId` locks the
      conference: afterwards the former owner fails the owner check, and the
      named user passes it but cannot read their profile inside the
      conference's entity group. No user can update it again. */
  lemma TransferLocksConference(st: Store, u: User, key: Id, form: ConferenceForm, v: User, w: User,
                                next: ConferenceForm)
    requires UpdateConference(st, Some(u), key, form).Ok?
    requires form.organizerUserId == Some(v.id) && v.id != u.id
    ensures UpdateConference(UpdateConference(st, Some(u), key, form).value.store, Some(w), key, next) ==
      Err(if w.id == v.id then CrossGroup else Forbidden)
  {
  }
}

=== FILE: datastore.dfy ===
/** Entities of the conference API and the abstract datastore that holds them.

    The datastore is a record of maps keyed by numeric ids plus one id
    allocator. Ids handed out by the allocator only grow, so among keys with
    the same parent ascending id order is the datastore's key order; a query
    that returns "the first match" or "all matches in key order" is a scan over
    ids `0 .. nextId`. Keys with different parents sort by parent first, which
    `Announcements.IndexBefore` spells out where it matters. Ancestor keys
    become explicit parent fields (`Conference.organizer`, `Session.conference`,
    `WishListEntry.owner`). A websafe key is represented by the id it encodes. */
module Datastore {
  import opened Common

  type Id = nat
  type UserId = string

  /** A calendar date as `strptime` would return it; parsing is not modelled. */
  datatype Date = Date(year: int, month: int, day: int)

  /** A time of day as `strptime(..., "%H:%M")` would return it. */
  datatype Time = Time(hour: int, minute: int)

  /** The authenticated caller: `getUserId(user)`, `user.nickname()`, `user.email()`. */
  datatype User = User(id: UserId, nickname: string, email: string)

  datatype Profile = Profile(
    displayName: string,
    mainEmail: string,
    teeShirtSize: string,
    conferenceKeysToAttend: seq<Id>)

  datatype Conference = Conference(
    organizer: UserId,              // parent key: the creating profile
    name: string,
    description: Option<string>,
    organizerUserId: string,
    topics: seq<string>,
    city: string,
    startDate: Option<Date>,
    month: int,
    endDate: Option<Date>,
    maxAttendees: int,
    seatsAvailable: int)

  datatype Session = Session(
    conference: Id,                 // parent key: the owning conference
    name: string,
    duration: int,
    typeOfSession: string,
    date: Option<Date>,
    startTime: Option<Time>,
    speakerKey: Option<Id>)

  datatype Speaker = Speaker(fullname: string, profession: Option<string>)

  datatype WishListEntry = WishListEntry(
    owner: Option<UserId>,          // parent key (the requesting profile), if it was given one
    sessionKey: Id,
    userID: UserId)

  /** `ConferenceForm` as the client sends it; `None` is an unset field and
      an unset repeated field is the empty list. */
  datatype ConferenceForm = ConferenceForm(
    name: Option<string>,
    description: Option<string>,
    organizerUserId: Option<string>,
    topics: seq<string>,
    city: Option<string>,
    startDate: Option<Date>,
    month: Option<int>,
    maxAttendees: Option<int>,
    seatsAvailable: Option<int>,
    endDate: Option<Date>)

  /** `SessionForm` as the client sends it. */
  datatype SessionForm = SessionForm(
    confwebsafekey: Option<Id>,
    name: Option<string>,
    duration: Option<int>,
    typeOfSession: Option<string>,
    date: Option<Date>,
    startTime: Option<Time>,
    speakerName: Option<string>,
    speakerProfession: Option<string>)

  /** Work handed to the deferred-task queue. */
  datatype Task =
    | ConfirmationEmail(email: string, conferenceInfo: ConferenceForm)
    | FeaturedSpeakerCheck(conference: Id, speakerName: Option<string>, speakerProfession: Option<string>)

  /** The process-wide cache: slot name to text. */
  type Cache = map<string, string>

  datatype Store = Store(
    profiles: map<UserId, Profile>,
    conferences: map<Id, Conference>,
    sessions: map<Id, Session>,
    speakers: map<Id, Speaker>,
    wishlists: map<Id, WishListEntry>,
    nextId: nat)
  {
    /** Every stored id, and every id an entity refers to, was handed out by
        the allocator. */
    ghost predicate Wf() {
      && (forall k :: k in conferences ==> k < nextId)
      && (forall k :: k in sessions ==> k < nextId)
      && (forall k :: k in speakers ==> k < nextId)
      && (forall k :: k in wishlists ==> k < nextId)
      && (forall u, i :: u in profiles && 0 <= i < |profiles[u].conferenceKeysToAttend| ==>
            profiles[u].conferenceKeysToAttend[i] < nextId)
      && (forall k :: k in sessions && sessions[k].speakerKey.Some? ==> sessions[k].speakerKey.value < nextId)
    }
  }

  /** The ids below `n` whose entity satisfies `p`, in ascending (key) order:
      the result of a datastore query with that filter. */
  function IdsWhere<V>(m: map<Id, V>, p: V -> bool, n: nat): (r: seq<Id>)
    ensures forall i :: 0 <= i < |r| ==> r[i] < n && r[i] in m && p(m[r[i]])
    ensures forall k :: 0 <= k < n && k in m && p(m[k]) ==> k in r
    ensures forall i, j :: 0 <= i < j < |r| ==> r[i] < r[j]
    decreases n
  {
    if n == 0 then []
    else
      var rest := IdsWhere(m, p, n - 1);
      if n - 1 in m && p(m[n - 1]) then rest + [n - 1] else rest
  }

  /** A query only sees the entities below its bound: two tables that agree
      there give the same result. */
  lemma {:induction false} IdsWhereAgree<V>(m1: map<Id, V>, m2: map<Id, V>, p: V -> bool, n: nat)
    requires forall k :: 0 <= k < n ==> (k in m1 <==> k in m2)
    requires forall k :: 0 <= k < n && k in m1 ==> m1[k] == m2[k]
    ensures IdsWhere(m1, p, n) == IdsWhere(m2, p, n)
    decreases n
  {
    if n > 0 {
      IdsWhereAgree(m1, m2, p, n - 1);
    }
  }

  /** A query no entity below the bound satisfies returns nothing. */
  lemma IdsWhereEmpty<V>(m: map<Id, V>, p: V -> bool, n: nat)
    requires forall k :: 0 <= k < n && k in m ==> !p(m[k])
    ensures IdsWhere(m, p, n) == []
  {
  }

  /** Raising the bound past one more matching entity appends its id. */
  lemma IdsWhereExtend<V>(m1: map<Id, V>, m2: map<Id, V>, p: V -> bool, n: nat)
    requires forall k :: 0 <= k < n ==> (k in m1 <==> k in m2)
    requires forall k :: 0 <= k < n && k in m1 ==> m1[k] == m2[k]
    requires n in m2 && p(m2[n])
    ensures IdsWhere(m2, p, n + 1) == IdsWhere(m1, p, n) + [n]
  {
    IdsWhereAgree(m1, m2, p, n);
  }

  /** `query.get()`: the matching entity with the smallest key, if any. */
  function FirstWhere<V>(m: map<Id, V>, p: V -> bool, n: nat): (r: Option<Id>)
    ensures r.Some? ==> r.value < n && r.value in m && p(m[r.value])
    ensures r.Some? ==> forall k :: 0 <= k < r.value && k in m ==> !p(m[k])
    ensures r.None? ==> forall k :: 0 <= k < n && k in m ==> !p(m[k])
  {
    var ids := IdsWhere(m, p, n);
    if |ids| == 0 then None
    else
      assert forall k :: 0 <= k < ids[0] && k in m && p(m[k]) ==> k in ids && false;
      Some(ids[0])
  }

  /** `ndb.Key(Profile, user_id).get()`. */
  function GetProfile(st: Store, u: UserId): Option<Profile> {
    if u in st.profiles then Some(st.profiles[u]) else None
  }
}

=== FILE: featured.dfy ===
/** The featured-speaker notice: the deferred task that recomputes it
    (`_checkFeaturedSpeaker`, conference.py:907-931, reached through the
    task handler in main.py:46-54) and its read (`getFeaturedSpeaker`,
    conference.py:938-943).

    The recomputation follows the code, not its docstring: it does not check
    that the speaker has more than one session, and it lists the speaker's
    sessions in every conference rather than the given one. It only reads
    speakers and never creates one. */
module FeaturedSpeaker {
  import opened Common
  import opened Text
  import opened Datastore
  import opened Sessions

  /** `MEMCACHE_FEATURED_SPEAKER`. */
  const FEATURED_SPEAKER_KEY: string := "FEATURED_SPEAKER"

  /** The two fixed parts of `FEATURED_SPEAKER_TPL`. */
  const FEATURED_PREFIX: string := "Featured speaker of this conference is "
  const FEATURED_MIDDLE: string := ". His/her session names are "

  /** The sessions whose speaker reference is `k`, across all conferences. */
  function SessionsOf(st: Store, k: Id): seq<Id> {
    IdsWhere(st.sessions, PointsAt(k), st.nextId)
  }

  /** The sessions whose speaker reference is `k`. */
  function PointsAt(k: Id): Session -> bool {
    (s: Session) => s.speakerKey == Some(k)
  }

  /** The names of the sessions under `ids`, in order. */
  function SessionNames(st: Store, ids: seq<Id>): (r: seq<string>)
    requires forall i :: 0 <= i < |ids| ==> ids[i] in st.sessions
    ensures |r| == |ids|
    ensures forall i :: 0 <= i < |ids| ==> r[i] == st.sessions[ids[i]].name
  {
    if |ids| == 0 then [] else [st.sessions[ids[0]].name] + SessionNames(st, ids[1..])
  }

  /** The notice for speaker `name` stored under `k`. */
  function Notice(st: Store, name: string, k: Id): string {
    FEATURED_PREFIX + name + FEATURED_MIDDLE + ListRepr(SessionNames(st, SessionsOf(st, k)))
  }

  /** `_checkFeaturedSpeaker`: an empty conference key is refused and a key
      that names no conference fails; when a speaker of that name exists,
      the notice naming it and all its sessions replaces the cached one;
      otherwise the cache is left as it was. */
  function CheckFeaturedSpeaker(st: Store, cache: Cache, conf: Option<Id>, name: string): (r: Result<Cache>)
    ensures conf.None? ==> r == Err(InvalidKey)
    ensures conf.Some? && conf.value !in st.conferences ==> r == Err(MissingEntity)
    ensures r.Ok? <==> conf.Some? && conf.value in st.conferences
    ensures r.Ok? && FindSpeaker(st, name).None? ==> r.value == cache
    ensures r.Ok? && FindSpeaker(st, name).Some? ==>
      r.value == cache[FEATURED_SPEAKER_KEY := Notice(st, name, FindSpeaker(st, name).value)]
  {
    if conf.None? then Err(InvalidKey)
    else if conf.value !in st.conferences then Err(MissingEntity)
    else
      match FindSpeaker(st, name)
      case None => Ok(cache)
      case Some(k) => Ok(cache[FEATURED_SPEAKER_KEY := Notice(st, name, k)])
  }

  /** A task parameter as the handler reads it back: `None` is url-encoded
      as the text "None". */
  function TaskParam(value: Option<string>): string {
    value.Or("None")
  }

  /** The task handler: the queued conference key and speaker name, read
      back as text, handed to `CheckFeaturedSpeaker`. */
  function RunFeaturedSpeakerTask(st: Store, cache: Cache, conf: Id, speakerName: Option<string>): (r: Result<Cache>)
    ensures r.Ok? <==> conf in st.conferences
    ensures speakerName.Some? ==> r == CheckFeaturedSpeaker(st, cache, Some(conf), speakerName.value)
    ensures speakerName.None? ==> r == CheckFeaturedSpeaker(st, cache, Some(conf), "None")
  {
    CheckFeaturedSpeaker(st, cache, Some(conf), TaskParam(speakerName))
  }

  /** `getFeaturedSpeaker`: the cached notice, or "" when there is none. */
  function GetFeaturedSpeaker(cache: Cache): string {
    if FEATURED_SPEAKER_KEY in cache then cache[FEATURED_SPEAKER_KEY] else ""
  }

  /** After a recomputation that finds the speaker, reading the notice gives
      the text naming the speaker and listing its sessions; no other cache
      slot changes in any case. */
  lemma FeaturedSpeakerRoundTrip(st: Store, cache: Cache, conf: Id, name: string)
    requires conf in st.conferences
    ensures CheckFeaturedSpeaker(st, cache, Some(conf), name).Ok?
    ensures FindSpeaker(st, name).Some? ==>
      GetFeaturedSpeaker(CheckFeaturedSpeaker(st, cache, Some(conf), name).value) == Notice(st, name, FindSpeaker(st, name).value)
    ensures FindSpeaker(st, name).None? ==>
      GetFeaturedSpeaker(CheckFeaturedSpeaker(st, cache, Some(conf), name).value) == GetFeaturedSpeaker(cache)
    ensures forall slot :: slot != FEATURED_SPEAKER_KEY ==>
      (slot in CheckFeaturedSpeaker(st, cache, Some(conf), name).value <==> slot in cache)
      && (slot in cache ==> CheckFeaturedSpeaker(st, cache, Some(conf), name).value[slot] == cache[slot])
  {
  }

  /** Running the recomputation twice leaves what running it once does. */
  lemma CheckFeaturedSpeakerIdempotent(st: Store, cache: Cache, conf: Option<Id>, name: string)
    requires CheckFeaturedSpeaker(st, cache, conf, name).Ok?
    ensures CheckFeaturedSpeaker(st, CheckFeaturedSpeaker(st, cache, conf, name).value, conf, name)
      == CheckFeaturedSpeaker(st, cache, conf, name)
  {
    var k := FindSpeaker(st, name);
    if k.Some? {
      var once := cache[FEATURED_SPEAKER_KEY := Notice(st, name, k.value)];
      assert once[FEATURED_SPEAKER_KEY := Notice(st, name, k.value)] == once;
    }
  }

  /** Which existing conference the task names makes no difference to the
      notice: the sessions are searched in every conference. */
  lemma NoticeIgnoresConference(st: Store, cache: Cache, c1: Id, c2: Id, name: string)
    requires c1 in st.conferences && c2 in st.conferences
    ensures CheckFeaturedSpeaker(st, cache, Some(c1), name) == CheckFeaturedSpeaker(st, cache, Some(c2), name)
  {
  }

  /** Every session pointing at the found speaker is named in the notice,
      whichever conference it belongs to. */
  lemma NoticeNamesEachSession(st: Store, name: string, k: Id, s: Id)
    requires s < st.nextId && s in st.sessions && st.sessions[s].speakerKey == Some(k)
    ensures IsInfix(st.sessions[s].name, Notice(st, name, k))
  {
    var ids := SessionsOf(st, k);
    assert s in ids;
    var i :| 0 <= i < |ids| && ids[i] == s;
    var names := SessionNames(st, ids);
    ListReprMentionsEach(names, i);
    InfixOfSuffix(names[i], FEATURED_PREFIX + name + FEATURED_MIDDLE, ListRepr(names));
  }

  /** A session that brought a new speaker into the store is not in that
      speaker's notice, and neither is any other: its reference is the
      reserved id, not the id the speaker was stored under, so no session
      points at the new speaker. */
  lemma NewSpeakerSessionNotListed(st: Store, tasks: seq<Task>, user: Option<User>, form: SessionForm)
    requires st.Wf()
    requires CreateSession(st, tasks, user, form).Ok?
    requires FindSession(st, form.confwebsafekey.value, form.name.value).None?
    requires Present(form.speakerName) && FindSpeaker(st, form.speakerName.value).None?
    ensures
      var after := CreateSession(st, tasks, user, form).value.store;
      && FindSpeaker(after, form.speakerName.value) == Some(st.nextId + 2)
      && SessionsOf(after, st.nextId + 2) == []
  {
    var after := CreateSession(st, tasks, user, form).value.store;
    var name := form.speakerName.value;
    NewSpeakerIsOrphaned(st, tasks, user, form);
    forall a | a in after.speakers && a != st.nextId + 2
      ensures !SpeakerNamed(name)(after.speakers[a])
    {
      assert a in st.speakers && a < st.nextId;
    }
    forall t | 0 <= t < after.nextId && t in after.sessions
      ensures !PointsAt(st.nextId + 2)(after.sessions[t])
    {
      assert t != st.nextId ==> t in st.sessions;
    }
    IdsWhereEmpty(after.sessions, PointsAt(st.nextId + 2), after.nextId);
  }

  /** A session whose speaker already existed points at it: the speaker's
      notice lists the sessions it listed before and then the new one. */
  lemma ReusedSpeakerSessionListed(st: Store, tasks: seq<Task>, user: Option<User>, form: SessionForm)
    requires CreateSession(st, tasks, user, form).Ok?
    requires FindSession(st, form.confwebsafekey.value, form.name.value).None?
    requires Present(form.speakerName) && FindSpeaker(st, form.speakerName.value).Some?
    ensures
      var after := CreateSession(st, tasks, user, form).value.store;
      var k := FindSpeaker(st, form.speakerName.value).value;
      && FindSpeaker(after, form.speakerName.value) == Some(k)
      && SessionsOf(after, k) == SessionsOf(st, k) + [st.nextId]
  {
    var after := CreateSession(st, tasks, user, form).value.store;
    var k := FindSpeaker(st, form.speakerName.value).value;
    AddedSessionListed(st, after, k);
  }

  /** Storing one more session under the next id, pointing at `k`, appends
      it to `k`'s sessions. */
  lemma AddedSessionListed(st: Store, after: Store, k: Id)
    requires after.nextId == st.nextId + 1 && after.speakers == st.speakers
    requires st.nextId in after.sessions && after.sessions[st.nextId].speakerKey == Some(k)
    requires after.sessions == st.sessions[st.nextId := after.sessions[st.nextId]]
    ensures SessionsOf(after, k) == SessionsOf(st, k) + [st.nextId]
  {
    IdsWhereExtend(st.sessions, after.sessions, PointsAt(k), st.nextId);
  }

  /** Two sessions with the same new speaker: the notice the second
      session's task writes lists the second session only, because the first
      one points at the reserved id rather than at the stored speaker. */
  lemma SecondSessionOnlyListed(st: Store, tasks: seq<Task>, user: Option<User>, first: SessionForm, second: SessionForm)
    requires st.Wf()
    requires CreateSession(st, tasks, user, first).Ok?
    requires FindSession(st, first.confwebsafekey.value, first.name.value).None?
    requires Present(first.speakerName) && FindSpeaker(st, first.speakerName.value).None?
    requires second.speakerName == first.speakerName
    requires
      var mid := CreateSession(st, tasks, user, first).value;
      && CreateSession(mid.store, mid.tasks, user, second).Ok?
      && FindSession(mid.store, second.confwebsafekey.value, second.name.value).None?
    ensures
      var mid := CreateSession(st, tasks, user, first).value;
      var after := CreateSession(mid.store, mid.tasks, user, second).value.store;
      && FindSpeaker(after, first.speakerName.value) == Some(st.nextId + 2)
      && SessionsOf(after, st.nextId + 2) == [st.nextId + 3]
  {
    var mid := CreateSession(st, tasks, user, first).value;
    NewSpeakerSessionNotListed(st, tasks, user, first);
    assert mid.store.nextId == st.nextId + 3;
    ReusedSpeakerSessionListed(mid.store, mid.tasks, user, second);
  }
}

=== FILE: filters.dfy ===
/** Conference query filters: validation of the client's filter list
    (`_formatFilters`, conference.py:297-324) and the query it becomes
    (`_getQuery`, conference.py:278-295). */
module Filters {
  import opened Common
  import opened Text

  /** `OPERATORS`: client operator names to datastore operators. */
  const OPERATORS: map<string, string> := map[
    "EQ" := "=", "GT" := ">", "GTEQ" := ">=", "LT" := "<", "LTEQ" := "<=", "NE" := "!="]

  /** `FIELDS`: client field names to `Conference` properties. */
  const FIELDS: map<string, string> := map[
    "CITY" := "city", "TOPIC" := "topics", "MONTH" := "month", "MAX_ATTENDEES" := "maxAttendees"]

  /** Properties whose filter value `_getQuery` converts with `int()`. */
  const INTEGER_FIELDS: set<string> := {"month", "maxAttendees"}

  /** One `ConferenceQueryForm` as the client sends it. */
  datatype RawFilter = RawFilter(field: string, operator: string, value: string)

  /** A filter after translation through the tables. */
  datatype Filter = Filter(field: string, operator: string, value: string) {
    /** Every operator except "=" is an inequality. */
    predicate IsInequality() {
      operator != "="
    }
  }

  datatype Formatted = Formatted(inequalityField: Option<string>, filters: seq<Filter>)

  function Translate(f: RawFilter): Option<Filter> {
    if f.field in FIELDS && f.operator in OPERATORS then
      Some(Filter(FIELDS[f.field], OPERATORS[f.operator], f.value))
    else None
  }

  /** The raw filter is valid and compares with an inequality. */
  predicate InequalityOn(f: RawFilter) {
    Translate(f).Some? && Translate(f).value.IsInequality()
  }

  /** The datastore accepts the list: every field and operator is known and
      all inequalities are on a single property. */
  predicate Acceptable(fs: seq<RawFilter>) {
    && (forall i :: 0 <= i < |fs| ==> Translate(fs[i]).Some?)
    && (forall i, j :: 0 <= i < |fs| && 0 <= j < |fs| && InequalityOn(fs[i]) && InequalityOn(fs[j]) ==>
          Translate(fs[i]).value.field == Translate(fs[j]).value.field)
  }

  /** The property of the leftmost inequality filter, if there is one. */
  function FirstInequalityField(fs: seq<RawFilter>): Option<string> {
    if |fs| == 0 then None
    else if InequalityOn(fs[0]) then Some(Translate(fs[0]).value.field)
    else FirstInequalityField(fs[1..])
  }

  /** `_formatFilters`: the loop over the client's filters, left to right,
      stopping at the first one that is unknown or that puts an inequality on
      a second property. */
  function FormatFilters(fs: seq<RawFilter>): (r: Result<Formatted>)
    ensures r.Ok? <==> Acceptable(fs)
    ensures r.Ok? ==> |r.value.filters| == |fs|
    ensures r.Ok? ==> forall i :: 0 <= i < |fs| ==> Translate(fs[i]) == Some(r.value.filters[i])
    ensures r.Ok? ==> r.value.inequalityField == FirstInequalityField(fs)
    decreases |fs|
  {
    if |fs| == 0 then Ok(Formatted(None, []))
    else
      var init := fs[..|fs| - 1];
      var last := fs[|fs| - 1];
      assert fs == init + [last];
      AcceptablePrefix(fs, |fs| - 1);
      FirstInequalityFieldAppend(init, last);
      match FormatFilters(init)
      case Err(e) => Err(e)
      case Ok(done) =>
        match Translate(last)
        case None => Err(InvalidFilter)
        case Some(f) =>
          if f.IsInequality() && done.inequalityField.Some? && done.inequalityField.value != f.field then
            AcceptableWitness(fs, |fs| - 1);
            Err(MultipleInequalityFields)
          else
            AcceptableExtend(init, last);
            var ineq := if f.IsInequality() then Some(f.field) else done.inequalityField;
            Ok(Formatted(ineq, done.filters + [f]))
  }

  /** Acceptance is closed under taking a prefix. */
  lemma AcceptablePrefix(fs: seq<RawFilter>, k: nat)
    requires k <= |fs|
    ensures Acceptable(fs) ==> Acceptable(fs[..k])
  {
    if Acceptable(fs) {
      forall i, j | 0 <= i < k && 0 <= j < k && InequalityOn(fs[..k][i]) && InequalityOn(fs[..k][j])
        ensures Translate(fs[..k][i]).value.field == Translate(fs[..k][j]).value.field
      {
        assert fs[..k][i] == fs[i] && fs[..k][j] == fs[j];
      }
    }
  }

  lemma {:induction false} FirstInequalityFieldAppend(fs: seq<RawFilter>, f: RawFilter)
    ensures FirstInequalityField(fs + [f]) ==
      if FirstInequalityField(fs).Some? then FirstInequalityField(fs)
      else if InequalityOn(f) then Some(Translate(f).value.field)
      else None
    decreases |fs|
  {
    if |fs| == 0 {
      assert [f][1..] == [];
    } else {
      assert (fs + [f])[1..] == fs[1..] + [f];
      FirstInequalityFieldAppend(fs[1..], f);
    }
  }

  /** The first inequality field names a field some inequality filter uses. */
  lemma {:induction false} FirstInequalityFieldIsUsed(fs: seq<RawFilter>)
    ensures FirstInequalityField(fs).Some? <==> exists i :: 0 <= i < |fs| && InequalityOn(fs[i])
    ensures FirstInequalityField(fs).Some? ==>
      exists i :: 0 <= i < |fs| && InequalityOn(fs[i]) && Translate(fs[i]).value.field == FirstInequalityField(fs).value
    decreases |fs|
  {
    if |fs| > 0 {
      FirstInequalityFieldIsUsed(fs[1..]);
      if !InequalityOn(fs[0]) {
        forall i | 0 < i < |fs| && InequalityOn(fs[i])
          ensures InequalityOn(fs[1..][i - 1])
        {
        }
        if FirstInequalityField(fs).Some? {
          var j :| 0 <= j < |fs[1..]| && InequalityOn(fs[1..][j])
            && Translate(fs[1..][j]).value.field == FirstInequalityField(fs).value;
          assert fs[1..][j] == fs[j + 1];
        }
      }
    }
  }

  /** Appending a filter that agrees with the earlier inequalities keeps the
      list acceptable. */
  lemma AcceptableExtend(init: seq<RawFilter>, last: RawFilter)
    requires Acceptable(init)
    requires Translate(last).Some?
    requires InequalityOn(last) && FirstInequalityField(init).Some? ==>
      FirstInequalityField(init).value == Translate(last).value.field
    ensures Acceptable(init + [last])
  {
    var fs := init + [last];
    FirstInequalityFieldIsUsed(init);
    forall i, j | 0 <= i < |fs| && 0 <= j < |fs| && InequalityOn(fs[i]) && InequalityOn(fs[j])
      ensures Translate(fs[i]).value.field == Translate(fs[j]).value.field
    {
      if i < |init| {
        assert fs[i] == init[i];
      }
      if j < |init| {
        assert fs[j] == init[j];
      }
    }
  }

  /** The last filter puts an inequality on a property other than the
      earlier one: the list is not acceptable. */
  lemma AcceptableWitness(fs: seq<RawFilter>, k: nat)
    requires k < |fs|
    requires InequalityOn(fs[k])
    requires FirstInequalityField(fs[..k]).Some?
    requires FirstInequalityField(fs[..k]).value != Translate(fs[k]).value.field
    ensures !Acceptable(fs)
  {
    FirstInequalityFieldIsUsed(fs[..k]);
    var i :| 0 <= i < k && InequalityOn(fs[..k][i])
      && Translate(fs[..k][i]).value.field == FirstInequalityField(fs[..k]).value;
    assert fs[..k][i] == fs[i];
  }

  /** `k` is the first filter at which the list stops being acceptable. */
  predicate FailsAt(fs: seq<RawFilter>, k: int) {
    0 <= k < |fs| && Acceptable(fs[..k]) && !Acceptable(fs[..k + 1])
  }

  /** A rejected list is rejected for the first filter that breaks it: an
      unknown field or operator there gives the invalid-filter error, and an
      inequality on a second property gives the one-inequality-field error. */
  lemma {:induction false} FormatFiltersStopsAtFirstBadFilter(fs: seq<RawFilter>)
    ensures FormatFilters(fs).Err? ==>
      exists k :: FailsAt(fs, k) &&
        FormatFilters(fs).error == (if Translate(fs[k]).None? then InvalidFilter else MultipleInequalityFields)
    decreases |fs|
  {
    if |fs| > 0 && FormatFilters(fs).Err? {
      var init := fs[..|fs| - 1];
      FormatFiltersStep(fs);
      FormatFiltersStopsAtFirstBadFilter(init);
      if FormatFilters(init).Err? {
        var k :| FailsAt(init, k) &&
          FormatFilters(init).error == (if Translate(init[k]).None? then InvalidFilter else MultipleInequalityFields);
        FailsAtPrefix(fs, init, k);
      } else {
        assert FailsAt(fs, |fs| - 1) by {
          assert fs[..|fs|] == fs;
        }
      }
    }
  }

  /** How one more filter changes the outcome of `FormatFilters`. */
  lemma FormatFiltersStep(fs: seq<RawFilter>)
    requires |fs| > 0
    ensures FormatFilters(fs[..|fs| - 1]).Err? ==> FormatFilters(fs) == FormatFilters(fs[..|fs| - 1])
    ensures FormatFilters(fs[..|fs| - 1]).Ok? && FormatFilters(fs).Err? ==>
      FormatFilters(fs).error == (if Translate(fs[|fs| - 1]).None? then InvalidFilter else MultipleInequalityFields)
  {
  }

  /** Failing at `k` within a prefix is failing at `k` in the whole list. */
  lemma FailsAtPrefix(fs: seq<RawFilter>, init: seq<RawFilter>, k: int)
    requires |init| <= |fs| && init == fs[..|init|] && FailsAt(init, k)
    ensures FailsAt(fs, k) && init[k] == fs[k]
  {
    assert init[..k] == fs[..k] && init[..k + 1] == fs[..k + 1];
  }

  // ---------------------------------------------------------------------
  // Query shaping

  datatype FilterValue = StringValue(text: string) | IntValue(number: int)

  /** One `FilterNode(field, operator, value)` of the query. */
  datatype Condition = Condition(field: string, operator: string, value: FilterValue)

  /** A conference query: sort keys in order, and conditions that must all
      hold (the query is their conjunction). */
  datatype Query = Query(orderBy: seq<string>, conditions: seq<Condition>)

  /** Every integer-typed filter value is text `int()` accepts. */
  predicate IntegerValuesParse(fs: seq<RawFilter>) {
    forall i :: 0 <= i < |fs| && Translate(fs[i]).Some? && Translate(fs[i]).value.field in INTEGER_FIELDS ==>
      ParseInt(fs[i].value).Some?
  }

  /** The condition a translated filter becomes, with `int()` applied to
      `month` and `maxAttendees` values. */
  function ToCondition(f: Filter): Result<Condition> {
    if f.field in INTEGER_FIELDS then
      match ParseInt(f.value)
      case None => Err(NotAnInteger(f.value))
      case Some(n) => Ok(Condition(f.field, f.operator, IntValue(n)))
    else Ok(Condition(f.field, f.operator, StringValue(f.value)))
  }

  /** The conversion loop of `_getQuery`, left to right. */
  function ToConditions(fs: seq<Filter>): (r: Result<seq<Condition>>)
    ensures r.Ok? <==> forall i :: 0 <= i < |fs| ==> ToCondition(fs[i]).Ok?
    ensures r.Ok? ==> |r.value| == |fs| && forall i :: 0 <= i < |fs| ==> ToCondition(fs[i]) == Ok(r.value[i])
    ensures r.Err? ==> exists i :: FirstFailureAt(fs, i, r.error)
    decreases |fs|
  {
    if |fs| == 0 then Ok([])
    else
      match ToCondition(fs[0])
      case Err(e) =>
        assert FirstFailureAt(fs, 0, e);
        Err(e)
      case Ok(c) =>
        match ToConditions(fs[1..])
        case Err(e) =>
          FirstFailureShifts(fs, e);
          Err(e)
        case Ok(cs) => Ok([c] + cs)
  }

  /** The filter at `i` is the first one that does not convert, and `e` is
      what converting it raises. */
  predicate FirstFailureAt(fs: seq<Filter>, i: int, e: ApiError) {
    0 <= i < |fs| && ToCondition(fs[i]) == Err(e) && forall j :: 0 <= j < i ==> ToCondition(fs[j]).Ok?
  }

  /** A first failure in the tail, after a head that converts, is the first
      failure of the whole list. */
  lemma FirstFailureShifts(fs: seq<Filter>, e: ApiError)
    requires |fs| > 0 && ToCondition(fs[0]).Ok?
    requires exists i :: FirstFailureAt(fs[1..], i, e)
    ensures exists i :: FirstFailureAt(fs, i, e)
  {
    var i :| FirstFailureAt(fs[1..], i, e);
    forall j | 0 <= j < i + 1
      ensures ToCondition(fs[j]).Ok?
    {
      if j > 0 {
        TailConverts(fs, j);
      }
    }
    assert fs[i + 1] == fs[1..][i];
    assert FirstFailureAt(fs, i + 1, e);
  }

  /** Position `j` of a list is position `j - 1` of its tail. */
  lemma TailConverts(fs: seq<Filter>, j: int)
    requires 0 < j < |fs| && ToCondition(fs[1..][j - 1]).Ok?
    ensures ToCondition(fs[j]).Ok?
  {
    assert fs[j] == fs[1..][j - 1];
  }

  /** `_getQuery`: order by the inequality property (when there is one) and
      then by name, and AND together one condition per filter. */
  function GetQuery(fs: seq<RawFilter>): (r: Result<Query>)
    ensures r.Ok? <==> Acceptable(fs) && IntegerValuesParse(fs)
    ensures !Acceptable(fs) ==>
      exists k :: FailsAt(fs, k) && r == Err(if Translate(fs[k]).None? then InvalidFilter else MultipleInequalityFields)
    ensures Acceptable(fs) && !IntegerValuesParse(fs) ==>
      exists i :: FirstUnparsedAt(fs, i) && r == Err(NotAnInteger(fs[i].value))
    ensures r.Ok? ==> (r.value.orderBy ==
      if FirstInequalityField(fs).None? then ["name"] else [FirstInequalityField(fs).value, "name"])
    ensures r.Ok? ==> |r.value.conditions| == |fs|
    ensures r.Ok? ==> forall i :: 0 <= i < |fs| ==> ConditionFor(fs[i], r.value.conditions[i])
  {
    match FormatFilters(fs)
    case Err(e) =>
      FormatFiltersStopsAtFirstBadFilter(fs);
      Err(e)
    case Ok(formatted) =>
      var order := match formatted.inequalityField
        case None => ["name"]
        case Some(field) => [field, "name"];
      match ToConditions(formatted.filters)
      case Err(e) =>
        var i :| FirstFailureAt(formatted.filters, i, e);
        FirstUnparsedRefused(fs, formatted.filters, i, e);
        Err(e)
      case Ok(conditions) =>
        ConditionsFollowFilters(fs, formatted.filters, conditions);
        Ok(Query(order, conditions))
  }

  /** `c` is the condition the client's filter `f` asks for: the field and
      operator translated through the tables, and the value converted with
      `int()` when the property holds an integer. */
  predicate ConditionFor(f: RawFilter, c: Condition) {
    && f.field in FIELDS && f.operator in OPERATORS
    && c.field == FIELDS[f.field] && c.operator == OPERATORS[f.operator]
    && if FIELDS[f.field] in INTEGER_FIELDS then c.value.IntValue? && ParseInt(f.value) == Some(c.value.number)
       else c.value == StringValue(f.value)
  }

  /** `ConditionFor` holds at every position of a converted list, and every
      integer value parsed. */
  lemma ConditionsFollowFilters(fs: seq<RawFilter>, filters: seq<Filter>, conditions: seq<Condition>)
    requires |filters| == |fs| && forall i :: 0 <= i < |fs| ==> Translate(fs[i]) == Some(filters[i])
    requires ToConditions(filters) == Ok(conditions)
    ensures |conditions| == |fs|
    ensures forall i :: 0 <= i < |fs| ==> ConditionFor(fs[i], conditions[i])
    ensures IntegerValuesParse(fs)
  {
    forall i | 0 <= i < |fs|
      ensures ConditionFor(fs[i], conditions[i])
    {
      assert ToCondition(filters[i]) == Ok(conditions[i]);
    }
  }

  /** A value at position `i` that does not convert means the list has an
      integer filter `int()` refuses. */
  lemma UnparsedValueRefused(fs: seq<RawFilter>, filters: seq<Filter>, i: int)
    requires 0 <= i < |filters| == |fs| && forall j :: 0 <= j < |fs| ==> Translate(fs[j]) == Some(filters[j])
    requires ToCondition(filters[i]).Err?
    ensures !IntegerValuesParse(fs)
  {
    assert Translate(fs[i]) == Some(filters[i]);
  }

  /** The client's filter names an integer property and its value is text
      `int()` refuses. */
  predicate Unparsed(f: RawFilter) {
    Translate(f).Some? && Translate(f).value.field in INTEGER_FIELDS && ParseInt(f.value).None?
  }

  /** Filter `i` is the leftmost one whose integer value does not convert. */
  predicate FirstUnparsedAt(fs: seq<RawFilter>, i: int) {
    0 <= i < |fs| && Unparsed(fs[i]) && forall j :: 0 <= j < i ==> !Unparsed(fs[j])
  }

  /** The first filter the conversion loop fails on is the leftmost one
      whose integer value `int()` refuses, and the loop raises for its text. */
  lemma FirstUnparsedRefused(fs: seq<RawFilter>, filters: seq<Filter>, i: int, e: ApiError)
    requires |filters| == |fs| && forall j :: 0 <= j < |fs| ==> Translate(fs[j]) == Some(filters[j])
    requires FirstFailureAt(filters, i, e)
    ensures FirstUnparsedAt(fs, i) && e == NotAnInteger(fs[i].value)
    ensures !IntegerValuesParse(fs)
  {
    assert Translate(fs[i]) == Some(filters[i]);
    forall j | 0 <= j < i
      ensures !Unparsed(fs[j])
    {
      assert Translate(fs[j]) == Some(filters[j]);
      assert ToCondition(filters[j]).Ok?;
    }
  }

  /** An integer filter written as `str(n)` reaches the query as `n`. */
  lemma GetQueryKeepsIntegers(fs: seq<RawFilter>, i: nat, n: int)
    requires i < |fs| && (fs[i].field == "MONTH" || fs[i].field == "MAX_ATTENDEES") && fs[i].value == IntToString(n)
    ensures GetQuery(fs).Ok? ==> GetQuery(fs).value.conditions[i].value == IntValue(n)
  {
    ParseIntRoundTrip(n);
  }

  /** Equality on month and an inequality on maxAttendees, both written as
      decimal numerals: sorted by maxAttendees first, both values converted
      back to the integers they spell. */
  lemma ExampleOneInequality(fs: seq<RawFilter>, month: int, seats: int)
    requires fs == [RawFilter("MONTH", "EQ", IntToString(month)), RawFilter("MAX_ATTENDEES", "GT", IntToString(seats))]
    ensures GetQuery(fs) ==
      Ok(Query(["maxAttendees", "name"],
               [Condition("month", "=", IntValue(month)), Condition("maxAttendees", ">", IntValue(seats))]))
  {
    OneInequalityAccepted(fs, month, seats);
    var q := GetQuery(fs).value;
    assert q.conditions[0] == Condition("month", "=", IntValue(month)) by {
      IntegerCondition(fs[0], q.conditions[0], "month", "=", month);
    }
    assert q.conditions[1] == Condition("maxAttendees", ">", IntValue(seats)) by {
      GreaterThanOperator();
      IntegerCondition(fs[1], q.conditions[1], "maxAttendees", ">", seats);
    }
    PairQuery(q, ["maxAttendees", "name"], Condition("month", "=", IntValue(month)), Condition("maxAttendees", ">", IntValue(seats)));
  }

  /** A query with two conditions is determined by its sort keys and those two. */
  lemma PairQuery(q: Query, order: seq<string>, c0: Condition, c1: Condition)
    requires q.orderBy == order && |q.conditions| == 2 && q.conditions[0] == c0 && q.conditions[1] == c1
    ensures q == Query(order, [c0, c1])
  {
    assert q.conditions == [c0, c1];
  }

  /** `GT` in the operator table. */
  lemma GreaterThanOperator()
    ensures OPERATORS["GT"] == ">"
  {
  }

  /** The condition for an integer filter whose text parses to `n`. */
  lemma IntegerCondition(f: RawFilter, c: Condition, field: string, operator: string, n: int)
    requires ConditionFor(f, c) && FIELDS[f.field] == field && OPERATORS[f.operator] == operator
    requires field in INTEGER_FIELDS && ParseInt(f.value) == Some(n)
    ensures c == Condition(field, operator, IntValue(n))
  {
  }

  /** The list of the example above passes both checks of `_getQuery`. */
  lemma OneInequalityAccepted(fs: seq<RawFilter>, month: int, seats: int)
    requires fs == [RawFilter("MONTH", "EQ", IntToString(month)), RawFilter("MAX_ATTENDEES", "GT", IntToString(seats))]
    ensures Acceptable(fs) && IntegerValuesParse(fs)
    ensures FirstInequalityField(fs) == Some("maxAttendees")
    ensures ParseInt(fs[0].value) == Some(month) && ParseInt(fs[1].value) == Some(seats)
  {
    assert Translate(fs[0]) == Some(Filter("month", "=", fs[0].value));
    assert Translate(fs[1]) == Some(Filter("maxAttendees", ">", fs[1].value));
    assert !InequalityOn(fs[0]) && InequalityOn(fs[1]);
    assert FirstInequalityField(fs) == Some("maxAttendees") by {
      assert FirstInequalityField(fs[1..]) == Some("maxAttendees");
    }
    assert Acceptable(fs) by {
      forall i, j | 0 <= i < |fs| && 0 <= j < |fs| && InequalityOn(fs[i]) && InequalityOn(fs[j])
        ensures i == 1 && j == 1
      {
      }
    }
    ParseIntRoundTrip(month);
    ParseIntRoundTrip(seats);
    assert IntegerValuesParse(fs) by {
      forall i | 0 <= i < |fs| ensures ParseInt(fs[i].value).Some? {
        assert i == 0 || i == 1;
      }
    }
  }

  /** Inequalities on two different properties are refused. */
  lemma ExampleTwoInequalityFields(fs: seq<RawFilter>)
    requires fs == [RawFilter("MONTH", "GT", "3"), RawFilter("MAX_ATTENDEES", "LT", "100")]
    ensures GetQuery(fs) == Err(MultipleInequalityFields)
  {
    assert Translate(fs[0]) == Some(Filter("month", ">", "3"));
    assert Translate(fs[1]) == Some(Filter("maxAttendees", "<", "100"));
    assert InequalityOn(fs[0]) && InequalityOn(fs[1]);
    assert !Acceptable(fs);
  }

  /** Two inequalities on the same property are accepted. */
  lemma ExampleSameInequalityField(fs: seq<RawFilter>)
    requires fs == [RawFilter("CITY", "GT", "A"), RawFilter("CITY", "LT", "M")]
    ensures GetQuery(fs) ==
      Ok(Query(["city", "name"], [Condition("city", ">", StringValue("A")), Condition("city", "<", StringValue("M"))]))
  {
    assert Translate(fs[0]) == Some(Filter("city", ">", "A"));
    assert Translate(fs[1]) == Some(Filter("city", "<", "M"));
    assert Acceptable(fs);
    assert "city" !in INTEGER_FIELDS;
    assert IntegerValuesParse(fs) by {
      forall i | 0 <= i < |fs| ensures Translate(fs[i]).value.field !in INTEGER_FIELDS {
        assert i == 0 || i == 1;
      }
    }
    assert FirstInequalityField(fs) == Some("city");
    var q := GetQuery(fs).value;
    assert ConditionFor(fs[0], q.conditions[0]) && ConditionFor(fs[1], q.conditions[1]);
    assert q.conditions[0] == Condition("city", ">", StringValue("A"));
    assert q.conditions[1] == Condition("city", "<", StringValue("M"));
    PairQuery(q, ["city", "name"], Condition("city", ">", StringValue("A")), Condition("city", "<", StringValue("M")));
  }
}

=== FILE: profiles.dfy ===
/** User profiles: lazy creation on first authenticated access
    (`_getProfileFromUser`, conference.py:369-391) and the profile save that
    touches only the user-editable fields (`_doProfile`, conference.py:393-412). */
module Profiles {
  import opened Common
  import opened Datastore
  import opened Text

  /** `str(TeeShirtSize.NOT_SPECIFIED)`. */
  const NOT_SPECIFIED: string := "NOT_SPECIFIED"

  /** `ProfileMiniForm`: the fields a user may change. The shirt size is the
      enum's name; an enum value is always truthy, so any given size is set. */
  datatype ProfileMiniForm = ProfileMiniForm(displayName: Option<string>, teeShirtSize: Option<string>)

  datatype WithProfile = WithProfile(store: Store, profile: Profile)

  /** The profile stored for a user seen for the first time. */
  function NewProfile(user: User): Profile {
    Profile(user.nickname, user.email, NOT_SPECIFIED, [])
  }

  /** The caller's profile as `_getProfileFromUser` returns it: stored or new. */
  function ProfileSeen(st: Store, u: User): Profile {
    if u.id in st.profiles then st.profiles[u.id] else NewProfile(u)
  }

  /** `_getProfileFromUser`: the caller's stored profile, or a fresh one that
      is stored on the spot. */
  function GetProfileFromUser(st: Store, user: Option<User>): (r: Result<WithProfile>)
    ensures user.None? <==> r.Err?
    ensures r.Err? ==> r.error == Unauthorized
    ensures r.Ok? ==> r.value.store == st.(profiles := st.profiles[user.value.id := r.value.profile])
    ensures r.Ok? && user.value.id in st.profiles ==> r.value.profile == st.profiles[user.value.id]
    ensures r.Ok? && user.value.id !in st.profiles ==>
      r.value.profile.conferenceKeysToAttend == [] && r.value.profile.displayName == user.value.nickname
      && r.value.profile.mainEmail == user.value.email && r.value.profile.teeShirtSize == NOT_SPECIFIED
  {
    match user
    case None => Err(Unauthorized)
    case Some(u) =>
      if u.id in st.profiles then
        assert st.profiles[u.id := st.profiles[u.id]] == st.profiles;
        Ok(WithProfile(st, st.profiles[u.id]))
      else
        var p := NewProfile(u);
        Ok(WithProfile(st.(profiles := st.profiles[u.id := p]), p))
  }

  /** The save part of `_doProfile`: a given, truthy value replaces the field. */
  function SaveFields(p: Profile, save: ProfileMiniForm): Profile {
    var p1 := if Present(save.displayName) then p.(displayName := save.displayName.value) else p;
    if save.teeShirtSize.Some? then p1.(teeShirtSize := save.teeShirtSize.value) else p1
  }

  /** What `_doProfile` leaves behind: the store after the call, and the
      profile it returns or the error it raises. */
  datatype ProfileOutcome = ProfileOutcome(store: Store, reply: Result<Profile>)

  /** `str(val)` on the display name raises: the save carries a non-empty
      name with a character outside ASCII. */
  predicate RefusedName(save: Option<ProfileMiniForm>) {
    save.Some? && Present(save.value.displayName) && !IsAscii(save.value.displayName.value)
  }

  /** `_doProfile`: fetch (or create) the caller's profile and, for a save,
      update only `displayName` and `teeShirtSize`. `str(val)` raises for a
      non-ASCII display name before anything of the save is written, but
      after `_getProfileFromUser` has stored the profile of a first-time
      caller: that profile stays. */
  function DoProfile(st: Store, user: Option<User>, save: Option<ProfileMiniForm>): (r: ProfileOutcome)
    ensures user.None? ==> r == ProfileOutcome(st, Err(Unauthorized))
    ensures r.reply.Err? <==> user.None? || RefusedName(save)
    ensures user.Some? && RefusedName(save) ==>
      && r.reply == Err(NotAscii(save.value.displayName.value))
      && r.store == st.(profiles := st.profiles[user.value.id := ProfileSeen(st, user.value)])
    ensures r.reply.Ok? ==> r.store == st.(profiles := st.profiles[user.value.id := r.reply.value])
    ensures r.reply.Ok? ==>
      var before := ProfileSeen(st, user.value);
      && r.reply.value.mainEmail == before.mainEmail
      && r.reply.value.conferenceKeysToAttend == before.conferenceKeysToAttend
      && r.reply.value.displayName ==
           (if save.Some? && Present(save.value.displayName) then save.value.displayName.value else before.displayName)
      && r.reply.value.teeShirtSize ==
           (if save.Some? && save.value.teeShirtSize.Some? then save.value.teeShirtSize.value else before.teeShirtSize)
  {
    match GetProfileFromUser(st, user)
    case Err(e) => ProfileOutcome(st, Err(e))
    case Ok(got) =>
      match save
      case None => ProfileOutcome(got.store, Ok(got.profile))
      case Some(form) =>
        if RefusedName(save) then ProfileOutcome(got.store, Err(NotAscii(form.displayName.value)))
        else
          var p := SaveFields(got.profile, form);
          ProfileOutcome(got.store.(profiles := got.store.profiles[user.value.id := p]), Ok(p))
  }

  /** Saving the same form twice leaves the same store as saving it once. */
  lemma DoProfileIdempotent(st: Store, user: Option<User>, save: ProfileMiniForm)
    requires DoProfile(st, user, Some(save)).reply.Ok?
    ensures DoProfile(DoProfile(st, user, Some(save)).store, user, Some(save)) == DoProfile(st, user, Some(save))
  {
  }
}

=== FILE: registration.dfy ===
/** Registering and unregistering the caller for a conference
    (`_conferenceRegistration`, conference.py:466-511).

    The source runs the whole call in one cross-group transaction over the
    caller's profile and the conference, so the model is one atomic step: an
    error result carries no new store. Transactions serialize, so concurrent
    registrations behave as some sequence of these steps. */
module Registration {
  import opened Common
  import opened Datastore
  import opened Profiles
  import opened Conferences

  datatype Registered = Registered(store: Store, retval: bool)

  predicate NoDuplicates(s: seq<Id>) {
    forall i, j :: 0 <= i < j < |s| ==> s[i] != s[j]
  }

  /** The position of the first occurrence of `x` in `s`. */
  function IndexOf(s: seq<Id>, x: Id): (i: nat)
    requires x in s
    ensures i < |s| && s[i] == x && x !in s[..i]
    decreases |s|
  {
    if s[0] == x then 0
    else
      var i := IndexOf(s[1..], x) + 1;
      assert s[..i] == [s[0]] + s[1..][..i - 1];
      i
  }

  /** Python's `list.remove(x)`: drop the first occurrence of `x` and keep
      the rest in order. */
  function RemoveFirst(s: seq<Id>, x: Id): (r: seq<Id>)
    ensures x !in s ==> r == s
    ensures x in s ==> r == s[..IndexOf(s, x)] + s[IndexOf(s, x) + 1..]
    ensures x in s ==> |r| == |s| - 1
    ensures multiset(r) == multiset(s) - multiset{x}
    decreases |s|
  {
    if |s| == 0 then s
    else if s[0] == x then
      assert s == [s[0]] + s[1..];
      assert IndexOf(s, x) == 0 && s[..0] + s[1..] == s[1..];
      s[1..]
    else
      var rest := RemoveFirst(s[1..], x);
      RemoveFirstPastHead(s, x, rest);
      [s[0]] + rest
  }

  lemma RemoveFirstUnfold(s: seq<Id>, x: Id)
    requires |s| > 0 && s[0] != x
    ensures RemoveFirst(s, x) == [s[0]] + RemoveFirst(s[1..], x)
  {
  }

  /** Removing past a head that differs from `x` keeps the head in front. */
  lemma RemoveFirstPastHead(s: seq<Id>, x: Id, rest: seq<Id>)
    requires |s| > 0 && s[0] != x
    requires x !in s[1..] ==> rest == s[1..]
    requires x in s[1..] ==> rest == s[1..][..IndexOf(s[1..], x)] + s[1..][IndexOf(s[1..], x) + 1..]
    requires multiset(rest) == multiset(s[1..]) - multiset{x}
    ensures x !in s ==> [s[0]] + rest == s
    ensures x in s ==> [s[0]] + rest == s[..IndexOf(s, x)] + s[IndexOf(s, x) + 1..]
    ensures x in s ==> |[s[0]] + rest| == |s| - 1
    ensures multiset([s[0]] + rest) == multiset(s) - multiset{x}
  {
    MultisetPastHead(s, x, rest);
    if x in s {
      IndexPastHead(s, x);
    } else {
      assert s == [s[0]] + s[1..];
    }
  }

  lemma MultisetPastHead(s: seq<Id>, x: Id, rest: seq<Id>)
    requires |s| > 0 && s[0] != x
    requires multiset(rest) == multiset(s[1..]) - multiset{x}
    ensures multiset([s[0]] + rest) == multiset(s) - multiset{x}
  {
    assert s == [s[0]] + s[1..];
  }

  lemma IndexPastHead(s: seq<Id>, x: Id)
    requires |s| > 0 && s[0] != x && x in s
    ensures x in s[1..]
    ensures s[..IndexOf(s, x)] + s[IndexOf(s, x) + 1..] ==
      [s[0]] + (s[1..][..IndexOf(s[1..], x)] + s[1..][IndexOf(s[1..], x) + 1..])
  {
    assert x in s[1..];
    var i := IndexOf(s, x);
    var j := IndexOf(s[1..], x);
    assert i == j + 1;
    assert s[..i] == [s[0]] + s[1..][..j];
    assert s[i + 1..] == s[1..][j + 1..];
  }

  lemma {:induction false} RemoveFirstKeepsNoDuplicates(s: seq<Id>, x: Id)
    ensures NoDuplicates(s) ==> NoDuplicates(RemoveFirst(s, x)) && x !in RemoveFirst(s, x)
    decreases |s|
  {
    if |s| > 0 && NoDuplicates(s) {
      var tail := s[1..];
      NoDuplicatesTail(s);
      if s[0] != x {
        RemoveFirstKeepsNoDuplicates(tail, x);
        var rest := RemoveFirst(tail, x);
        assert multiset(rest)[s[0]] <= multiset(tail)[s[0]] == 0;
        RemoveFirstUnfold(s, x);
        NoDuplicatesCons(s[0], rest);
      }
    }
  }

  /** The tail of a list without repeats has none, and lacks the head. */
  lemma NoDuplicatesTail(s: seq<Id>)
    requires |s| > 0 && NoDuplicates(s)
    ensures NoDuplicates(s[1..]) && s[0] !in s[1..]
  {
    var tail := s[1..];
    forall i, j | 0 <= i < j < |tail|
      ensures tail[i] != tail[j]
    {
      assert tail[i] == s[i + 1] && tail[j] == s[j + 1];
    }
    forall i | 0 <= i < |tail|
      ensures tail[i] != s[0]
    {
      assert tail[i] == s[i + 1];
    }
  }

  /** A new head in front of a list without repeats makes none. */
  lemma NoDuplicatesCons(h: Id, rest: seq<Id>)
    requires NoDuplicates(rest) && h !in rest
    ensures NoDuplicates([h] + rest)
  {
    var r := [h] + rest;
    forall i, j | 0 <= i < j < |r|
      ensures r[i] != r[j]
    {
      assert r[j] == rest[j - 1];
      if i > 0 {
        assert r[i] == rest[i - 1];
      }
    }
  }

  /** Removing the key just appended gives back the list it was appended to. */
  lemma {:induction false} RemoveFirstOfAppended(s: seq<Id>, x: Id)
    requires x !in s
    ensures RemoveFirst(s + [x], x) == s
    decreases |s|
  {
    if |s| == 0 {
    } else {
      assert (s + [x])[1..] == s[1..] + [x];
      RemoveFirstOfAppended(s[1..], x);
    }
  }

  /** The register branch on the attendance list and the seat counter:
      "already registered" is checked before "no seats". */
  function RegisterStep(keys: seq<Id>, seats: int, key: Id): (r: Result<(seq<Id>, int)>)
    ensures key in keys ==> r == Err(AlreadyRegistered)
    ensures key !in keys && seats <= 0 ==> r == Err(NoSeatsAvailable)
    ensures r.Ok? <==> key !in keys && seats > 0
    ensures r.Ok? ==> r.value.0 == keys + [key] && r.value.1 == seats - 1 && r.value.1 >= 0
    ensures r.Ok? && NoDuplicates(keys) ==> NoDuplicates(r.value.0)
  {
    if key in keys then Err(AlreadyRegistered)
    else if seats <= 0 then Err(NoSeatsAvailable)
    else Ok((keys + [key], seats - 1))
  }

  /** The unregister branch: `false` and no change when not registered. */
  function UnregisterStep(keys: seq<Id>, seats: int, key: Id): (r: (seq<Id>, int, bool))
    ensures r.2 <==> key in keys
    ensures !r.2 ==> r.0 == keys && r.1 == seats
    ensures r.2 ==> r.1 == seats + 1 && multiset(r.0) == multiset(keys) - multiset{key}
    ensures r.2 ==> r.0 == keys[..IndexOf(keys, key)] + keys[IndexOf(keys, key) + 1..]
    ensures NoDuplicates(keys) ==> NoDuplicates(r.0) && key !in r.0
  {
    RemoveFirstKeepsNoDuplicates(keys, key);
    if key in keys then (RemoveFirst(keys, key), seats + 1, true) else (keys, seats, false)
  }

  /** `prof.put(); conf.put()`. */
  function PutBoth(st: Store, u: UserId, p: Profile, key: Id, c: Conference): Store {
    st.(profiles := st.profiles[u := p], conferences := st.conferences[key := c])
  }

  /** The register branch of the transaction for an authenticated caller and
      an existing conference. */
  function RegisterFor(st: Store, u: User, key: Id): (r: Result<Registered>)
    requires key in st.conferences
    ensures key in ProfileSeen(st, u).conferenceKeysToAttend ==> r == Err(AlreadyRegistered)
    ensures key !in ProfileSeen(st, u).conferenceKeysToAttend && st.conferences[key].seatsAvailable <= 0 ==>
      r == Err(NoSeatsAvailable)
    ensures r.Ok? <==> key !in ProfileSeen(st, u).conferenceKeysToAttend && st.conferences[key].seatsAvailable > 0
    ensures r.Ok? ==> r.value.retval
    ensures r.Ok? ==> r.value.store == PutBoth(st, u.id,
      ProfileSeen(st, u).(conferenceKeysToAttend := ProfileSeen(st, u).conferenceKeysToAttend + [key]),
      key, st.conferences[key].(seatsAvailable := st.conferences[key].seatsAvailable - 1))
    ensures r.Ok? ==> r.value.store.conferences[key].seatsAvailable >= 0
  {
    var prof := ProfileSeen(st, u);
    var conf := st.conferences[key];
    var (keys, seats) :- RegisterStep(prof.conferenceKeysToAttend, conf.seatsAvailable, key);
    Ok(Registered(PutBoth(st, u.id, prof.(conferenceKeysToAttend := keys), key, conf.(seatsAvailable := seats)), true))
  }

  /** The unregister branch of the transaction for an authenticated caller
      and an existing conference. The stored profile is written back even
      when it was only just created. */
  function UnregisterFor(st: Store, u: User, key: Id): (r: Registered)
    requires key in st.conferences
    ensures u.id in r.store.profiles
    ensures r.retval <==> key in ProfileSeen(st, u).conferenceKeysToAttend
    ensures !r.retval ==> r.store == PutBoth(st, u.id, ProfileSeen(st, u), key, st.conferences[key])
    ensures r.retval ==>
      var p := r.store.profiles[u.id];
      && r.store == PutBoth(st, u.id, p, key, st.conferences[key].(seatsAvailable := st.conferences[key].seatsAvailable + 1))
      && p == ProfileSeen(st, u).(conferenceKeysToAttend := p.conferenceKeysToAttend)
      && multiset(p.conferenceKeysToAttend) == multiset(ProfileSeen(st, u).conferenceKeysToAttend) - multiset{key}
  {
    var prof := ProfileSeen(st, u);
    var conf := st.conferences[key];
    var (keys, seats, retval) := UnregisterStep(prof.conferenceKeysToAttend, conf.seatsAvailable, key);
    Registered(PutBoth(st, u.id, prof.(conferenceKeysToAttend := keys), key, conf.(seatsAvailable := seats)), retval)
  }

  /** `_conferenceRegistration(request, reg)` as one atomic step: the caller
      must be signed in, then the conference must exist, then the branch. */
  function ConferenceRegistration(st: Store, user: Option<User>, key: Id, reg: bool): (r: Result<Registered>)
    ensures user.None? ==> r == Err(Unauthorized)
    ensures user.Some? && key !in st.conferences ==> r == Err(NotFound)
    ensures user.Some? && key in st.conferences && reg ==> r == RegisterFor(st, user.value, key)
    ensures user.Some? && key in st.conferences && !reg ==> r == Ok(UnregisterFor(st, user.value, key))
  {
    var got :- GetProfileFromUser(st, user);
    if key !in got.store.conferences then Err(NotFound)
    else if reg then RegisterFor(st, user.value, key)
    else Ok(UnregisterFor(st, user.value, key))
  }

  /** Registering then unregistering leaves the caller's list and the seat
      count as they were; the only trace is a profile created on the way. */
  lemma RegisterThenUnregisterRestores(st: Store, u: User, key: Id)
    requires key in st.conferences && RegisterFor(st, u, key).Ok?
    ensures key in RegisterFor(st, u, key).value.store.conferences
    ensures UnregisterFor(RegisterFor(st, u, key).value.store, u, key) ==
      Registered(st.(profiles := st.profiles[u.id := ProfileSeen(st, u)]), true)
  {
    var before := ProfileSeen(st, u);
    var conf := st.conferences[key];
    var registered := before.(conferenceKeysToAttend := before.conferenceKeysToAttend + [key]);
    var mid := PutBoth(st, u.id, registered, key, conf.(seatsAvailable := conf.seatsAvailable - 1));
    assert RegisterFor(st, u, key).value.store == mid;
    UnregisterUndoesRegisterFor(st, u, key, before, registered, conf, mid);
    PutBothOverwrites(st, u.id, registered, before, key, conf.(seatsAvailable := conf.seatsAvailable - 1), conf);
  }

  /** A second `PutBoth` of the same profile and conference hides the first;
      putting back the stored conference leaves the conferences unchanged. */
  lemma PutBothOverwrites(st: Store, u: UserId, p1: Profile, p2: Profile, key: Id, c1: Conference, c2: Conference)
    requires key in st.conferences && st.conferences[key] == c2
    ensures PutBoth(PutBoth(st, u, p1, key, c1), u, p2, key, c2) == st.(profiles := st.profiles[u := p2])
  {
    assert st.profiles[u := p1][u := p2] == st.profiles[u := p2];
    assert st.conferences[key := c1][key := c2] == st.conferences;
  }

  lemma UnregisterUndoesRegisterFor(st: Store, u: User, key: Id, before: Profile, registered: Profile,
                                     conf: Conference, mid: Store)
    requires key in st.conferences && conf == st.conferences[key]
    requires before == ProfileSeen(st, u) && key !in before.conferenceKeysToAttend
    requires registered == before.(conferenceKeysToAttend := before.conferenceKeysToAttend + [key])
    requires mid == PutBoth(st, u.id, registered, key, conf.(seatsAvailable := conf.seatsAvailable - 1))
    ensures UnregisterFor(mid, u, key) == Registered(PutBoth(mid, u.id, before, key, conf), true)
  {
    assert ProfileSeen(mid, u) == registered;
    RemoveFirstOfAppended(before.conferenceKeysToAttend, key);
    assert UnregisterStep(registered.conferenceKeysToAttend, conf.seatsAvailable - 1, key)
      == (before.conferenceKeysToAttend, conf.seatsAvailable, true);
  }

  // ---------------------------------------------------------------------
  // Seat accounting

  ghost predicate ListsHaveNoDuplicates(st: Store) {
    forall u :: u in st.profiles ==> NoDuplicates(st.profiles[u].conferenceKeysToAttend)
  }

  /** The users whose profile lists the conference. */
  ghost function Attendees(profiles: map<UserId, Profile>, key: Id): set<UserId> {
    set u | u in profiles && key in profiles[u].conferenceKeysToAttend
  }

  /** The seat counter is non-negative and counter plus attendees is the
      capacity. This holds for a new conference with positive capacity and is
      kept by every registration step; the source checks it nowhere else. */
  ghost predicate SeatsConsistent(st: Store, key: Id) {
    key in st.conferences ==>
      && 0 <= st.conferences[key].seatsAvailable
      && st.conferences[key].seatsAvailable + |Attendees(st.profiles, key)| == st.conferences[key].maxAttendees
  }

  /** A consistent conference never has negative seats or more seats than
      its capacity. */
  lemma SeatBounds(st: Store, key: Id)
    requires key in st.conferences && SeatsConsistent(st, key)
    ensures 0 <= st.conferences[key].seatsAvailable <= st.conferences[key].maxAttendees
  {
  }

  lemma AttendeesAfterPut(profiles: map<UserId, Profile>, u: UserId, p: Profile, old_: Profile, key: Id)
    requires u in profiles ==> profiles[u] == old_
    requires u !in profiles ==> key !in old_.conferenceKeysToAttend
    ensures key in p.conferenceKeysToAttend && key !in old_.conferenceKeysToAttend ==>
      Attendees(profiles[u := p], key) == Attendees(profiles, key) + {u} && u !in Attendees(profiles, key)
    ensures key !in p.conferenceKeysToAttend && key in old_.conferenceKeysToAttend ==>
      Attendees(profiles[u := p], key) == Attendees(profiles, key) - {u} && u in Attendees(profiles, key)
    ensures (key in p.conferenceKeysToAttend <==> key in old_.conferenceKeysToAttend) ==>
      Attendees(profiles[u := p], key) == Attendees(profiles, key)
  {
  }

  /** Registration steps keep lists duplicate-free and keep the seat
      accounting of every conference. */
  lemma RegistrationKeepsSeatsConsistent(st: Store, user: Option<User>, key: Id, reg: bool, c: Id)
    requires ListsHaveNoDuplicates(st) && SeatsConsistent(st, c)
    requires ConferenceRegistration(st, user, key, reg).Ok?
    ensures ListsHaveNoDuplicates(ConferenceRegistration(st, user, key, reg).value.store)
    ensures SeatsConsistent(ConferenceRegistration(st, user, key, reg).value.store, c)
  {
    if reg {
      RegisterForKeepsSeatsConsistent(st, user.value, key, c);
    } else {
      UnregisterForKeepsSeatsConsistent(st, user.value, key, c);
    }
  }

  lemma RegisterForKeepsSeatsConsistent(st: Store, u: User, key: Id, c: Id)
    requires ListsHaveNoDuplicates(st) && SeatsConsistent(st, c)
    requires key in st.conferences && RegisterFor(st, u, key).Ok?
    ensures ListsHaveNoDuplicates(RegisterFor(st, u, key).value.store)
    ensures SeatsConsistent(RegisterFor(st, u, key).value.store, c)
  {
    var before := ProfileSeen(st, u);
    var st' := RegisterFor(st, u, key).value.store;
    var p := st'.profiles[u.id];
    assert p.conferenceKeysToAttend == before.conferenceKeysToAttend + [key];
    assert NoDuplicates(before.conferenceKeysToAttend);
    assert RegisterStep(before.conferenceKeysToAttend, st.conferences[key].seatsAvailable, key).Ok?;
    AttendeesAfterPut(st.profiles, u.id, p, before, c);
  }

  lemma UnregisterForKeepsSeatsConsistent(st: Store, u: User, key: Id, c: Id)
    requires ListsHaveNoDuplicates(st) && SeatsConsistent(st, c)
    requires key in st.conferences
    ensures ListsHaveNoDuplicates(UnregisterFor(st, u, key).store)
    ensures SeatsConsistent(UnregisterFor(st, u, key).store, c)
  {
    var before := ProfileSeen(st, u);
    var r := UnregisterFor(st, u, key);
    var p := r.store.profiles[u.id];
    assert NoDuplicates(before.conferenceKeysToAttend);
    var step := UnregisterStep(before.conferenceKeysToAttend, st.conferences[key].seatsAvailable, key);
    assert p.conferenceKeysToAttend == step.0;
    UnregisterStepMembership(before.conferenceKeysToAttend, st.conferences[key].seatsAvailable, key, c);
    assert ListsHaveNoDuplicates(r.store);
    AttendeesAfterPut(st.profiles, u.id, p, before, c);
  }

  /** Unregistering from a duplicate-free list removes `key` and keeps every
      other conference. */
  lemma UnregisterStepMembership(keys: seq<Id>, seats: int, key: Id, y: Id)
    requires NoDuplicates(keys)
    ensures y in UnregisterStep(keys, seats, key).0 <==> y in keys && y != key
  {
    var step := UnregisterStep(keys, seats, key);
    if y != key && step.2 {
      assert multiset(step.0)[y] == multiset(keys)[y];
    }
  }

  /** A new conference is consistent exactly when its capacity is positive,
      or capacity and requested seats are both 0. */
  lemma CreatedConferenceConsistency(st: Store, tasks: seq<Task>, user: Option<User>, form: ConferenceForm)
    requires st.Wf()
    requires CreateConference(st, tasks, user, form).Ok?
    ensures
      var created := CreateConference(st, tasks, user, form).value;
      var c := created.store.conferences[created.key];
      SeatsConsistent(created.store, created.key) <==>
        c.maxAttendees > 0 || (c.maxAttendees == 0 && c.seatsAvailable == 0)
  {
    var created := CreateConference(st, tasks, user, form).value;
    assert Attendees(created.store.profiles, created.key) == {} by {
      forall u | u in st.profiles
        ensures created.key !in st.profiles[u].conferenceKeysToAttend
      {
        var l := st.profiles[u].conferenceKeysToAttend;
        forall i | 0 <= i < |l|
          ensures l[i] != created.key
        {
          assert l[i] < st.nextId;
        }
      }
    }
  }

  /** The owner can overwrite the counter with any value: the seat
      accounting is not protected by the update endpoint. */
  lemma UpdateCanBreakSeatAccounting()
    ensures
      var owner := User("owner", "Owner", "owner@example.com");
      var conf := Conference("owner", "Conf", None, "owner", ["Default", "Topic"], "Default City",
                             None, 0, None, 10, 10);
      var st := Store(map["owner" := NewProfile(owner)], map[0 := conf], map[], map[], map[], 1);
      var form := ConferenceForm(None, None, None, [], None, None, None, None, Some(99), None);
      && SeatsConsistent(st, 0)
      && UpdateConference(st, Some(owner), 0, form).Ok?
      && !SeatsConsistent(UpdateConference(st, Some(owner), 0, form).value.store, 0)
  {
    var owner := User("owner", "Owner", "owner@example.com");
    var conf := Conference("owner", "Conf", None, "owner", ["Default", "Topic"], "Default City",
                           None, 0, None, 10, 10);
    var st := Store(map["owner" := NewProfile(owner)], map[0 := conf], map[], map[], map[], 1);
    assert Attendees(st.profiles, 0) == {};
    var form := ConferenceForm(None, None, None, [], None, None, None, None, Some(99), None);
    var st' := UpdateConference(st, Some(owner), 0, form).value.store;
    assert st'.profiles == st.profiles;
  }

  /** Two callers race for the last seat: whichever transaction commits first
      gets it, the other sees "no seats", and no seat is left. */
  lemma LastSeatGoesToOneCaller(st: Store, a: User, b: User, key: Id)
    requires key in st.conferences && st.conferences[key].seatsAvailable == 1
    requires a.id != b.id
    requires a.id in st.profiles ==> key !in st.profiles[a.id].conferenceKeysToAttend
    requires b.id in st.profiles ==> key !in st.profiles[b.id].conferenceKeysToAttend
    ensures ConferenceRegistration(st, Some(a), key, true).Ok?
    ensures
      var first := ConferenceRegistration(st, Some(a), key, true).value;
      && first.retval
      && first.store.conferences[key].seatsAvailable == 0
      && ConferenceRegistration(first.store, Some(b), key, true) == Err(NoSeatsAvailable)
  {
  }

  /** A second registration by the same caller is refused and changes nothing. */
  lemma RegisterTwiceRefused(st: Store, user: Option<User>, key: Id)
    requires ConferenceRegistration(st, user, key, true).Ok?
    ensures ConferenceRegistration(ConferenceRegistration(st, user, key, true).value.store, user, key, true)
      == Err(AlreadyRegistered)
  {
  }
}

=== FILE: sessions.dfy ===
/** Session creation with speaker lookup-or-create and the featured-speaker
    task it queues (`_createSessionObject`, conference.py:572-654). */
module Sessions {
  import opened Common
  import opened Datastore

  // `SESSION_DEFAULTS` (conference.py:53-56)
  const DEFAULT_DURATION: int := 0
  const DEFAULT_TYPE_OF_SESSION: string := "NOT_SPECIFIED"

  datatype SessionCreated = SessionCreated(store: Store, tasks: seq<Task>, form: SessionForm)

  /** Where a new session's speaker reference comes from, and the speaker
      table and allocator after resolving it. */
  datatype SpeakerResolution = SpeakerResolution(key: Option<Id>, speakers: map<Id, Speaker>, nextId: nat)

  /** The sessions of conference `conf` called `name`. */
  function SessionNamed(conf: Id, name: string): Session -> bool {
    (s: Session) => s.conference == conf && s.name == name
  }

  /** The speakers whose full name is `name`. */
  function SpeakerNamed(name: string): Speaker -> bool {
    (s: Speaker) => s.fullname == name
  }

  /** `Session.query(ancestor=conf).filter(Session.name == name).get()`. */
  function FindSession(st: Store, conf: Id, name: string): Option<Id> {
    FirstWhere(st.sessions, SessionNamed(conf, name), st.nextId)
  }

  /** `Speaker.query().filter(Speaker.fullname == name).get()`. */
  function FindSpeaker(st: Store, name: string): Option<Id> {
    FirstWhere(st.speakers, SpeakerNamed(name), st.nextId)
  }

  /** The speaker part of `_createSessionObject`, with fresh ids taken from
      `st.nextId + 1` on (the session itself has `st.nextId`). A named
      speaker that exists is reused. A named speaker that does not exist is
      stored, but under a second fresh id: the source allocates an id for the
      session's reference and then stores the speaker without that key, so
      the datastore gives it another one and the reference points at no
      speaker. Without a name there is no speaker. */
  function ResolveSpeaker(st: Store, name: Option<string>, profession: Option<string>): (r: SpeakerResolution)
    ensures !Present(name) ==> r == SpeakerResolution(None, st.speakers, st.nextId + 1)
    ensures Present(name) && FindSpeaker(st, name.value).Some? ==>
      r == SpeakerResolution(FindSpeaker(st, name.value), st.speakers, st.nextId + 1)
    ensures Present(name) && FindSpeaker(st, name.value).None? ==>
      && r.key == Some(st.nextId + 1)
      && r.speakers == st.speakers[st.nextId + 2 := Speaker(name.value, profession)]
      && r.nextId == st.nextId + 3
  {
    if !Present(name) then SpeakerResolution(None, st.speakers, st.nextId + 1)
    else if FindSpeaker(st, name.value).Some? then
      SpeakerResolution(FindSpeaker(st, name.value), st.speakers, st.nextId + 1)
    else
      var reserved := st.nextId + 1;
      var stored := st.nextId + 2;
      SpeakerResolution(Some(reserved), st.speakers[stored := Speaker(name.value, profession)], stored + 1)
  }

  /** The request after the `SESSION_DEFAULTS` loop: only a `None` field
      takes its default. */
  function WithSessionDefaults(form: SessionForm): SessionForm {
    form.(duration := Some(form.duration.Or(DEFAULT_DURATION)),
          typeOfSession := Some(form.typeOfSession.Or(DEFAULT_TYPE_OF_SESSION)))
  }

  /** `_createSessionObject`: any signed-in user may add a session to an
      existing conference. A session whose name the conference already has
      is not created again, and the request comes back as sent. Otherwise
      the session is stored under a fresh id, its speaker resolved, and one
      featured-speaker task queued with the raw speaker fields. */
  function CreateSession(st: Store, tasks: seq<Task>, user: Option<User>, form: SessionForm): (r: Result<SessionCreated>)
    ensures user.None? ==> r == Err(Unauthorized)
    ensures user.Some? && form.confwebsafekey.None? ==> r == Err(MissingField("confwebsafekey"))
    ensures user.Some? && form.confwebsafekey.Some? && !Present(form.name) ==> r == Err(MissingField("name"))
    ensures (user.Some? && form.confwebsafekey.Some? && Present(form.name)
             && form.confwebsafekey.value !in st.conferences) ==> r == Err(MissingEntity)
    ensures r.Ok? <==> (user.Some? && form.confwebsafekey.Some? && Present(form.name)
                        && form.confwebsafekey.value in st.conferences)
    ensures r.Ok? && FindSession(st, form.confwebsafekey.value, form.name.value).Some? ==>
      r.value == SessionCreated(st, tasks, form)
    ensures r.Ok? && FindSession(st, form.confwebsafekey.value, form.name.value).None? ==>
      var sp := ResolveSpeaker(st, form.speakerName, form.speakerProfession);
      && r.value.store == st.(sessions := r.value.store.sessions, speakers := sp.speakers, nextId := sp.nextId)
      && r.value.store.sessions == st.sessions[st.nextId := Session(
           form.confwebsafekey.value, form.name.value,
           form.duration.Or(DEFAULT_DURATION), form.typeOfSession.Or(DEFAULT_TYPE_OF_SESSION),
           form.date, form.startTime, sp.key)]
      && r.value.tasks == tasks + [FeaturedSpeakerCheck(form.confwebsafekey.value, form.speakerName, form.speakerProfession)]
      && r.value.form == WithSessionDefaults(form)
  {
    if user.None? then Err(Unauthorized)
    else if form.confwebsafekey.None? then Err(MissingField("confwebsafekey"))
    else if !Present(form.name) then Err(MissingField("name"))
    else if form.confwebsafekey.value !in st.conferences then Err(MissingEntity)
    else
      var conf := form.confwebsafekey.value;
      if FindSession(st, conf, form.name.value).Some? then Ok(SessionCreated(st, tasks, form))
      else
        var filled := WithSessionDefaults(form);
        var sp := ResolveSpeaker(st, form.speakerName, form.speakerProfession);
        var session := Session(conf, form.name.value, filled.duration.value, filled.typeOfSession.value,
                               form.date, form.startTime, sp.key);
        Ok(SessionCreated(
          st.(sessions := st.sessions[st.nextId := session], speakers := sp.speakers, nextId := sp.nextId),
          tasks + [FeaturedSpeakerCheck(conf, form.speakerName, form.speakerProfession)],
          filled))
  }

  /** No conference has two sessions with the same name. */
  ghost predicate UniqueSessionNames(st: Store) {
    forall a, b :: a in st.sessions && b in st.sessions && SessionNamed(st.sessions[a].conference, st.sessions[a].name)(st.sessions[b])
      ==> a == b
  }

  /** No two stored speakers share a full name. */
  ghost predicate UniqueSpeakerNames(st: Store) {
    forall a, b :: a in st.speakers && b in st.speakers && st.speakers[a].fullname == st.speakers[b].fullname ==> a == b
  }

  /** Creation keeps every id below the allocator. */
  lemma CreateSessionPreservesWf(st: Store, tasks: seq<Task>, user: Option<User>, form: SessionForm)
    requires st.Wf()
    requires CreateSession(st, tasks, user, form).Ok?
    ensures CreateSession(st, tasks, user, form).value.store.Wf()
  {
    var r := CreateSession(st, tasks, user, form).value;
    if FindSession(st, form.confwebsafekey.value, form.name.value).None? {
      var sp := ResolveSpeaker(st, form.speakerName, form.speakerProfession);
      assert sp.nextId > st.nextId && (sp.key.Some? ==> sp.key.value < sp.nextId);
      assert forall k :: k in sp.speakers ==> k < sp.nextId;
    }
  }

  /** Creation never gives a conference a second session of the same name. */
  lemma CreateSessionKeepsSessionNamesUnique(st: Store, tasks: seq<Task>, user: Option<User>, form: SessionForm)
    requires st.Wf() && UniqueSessionNames(st)
    requires CreateSession(st, tasks, user, form).Ok?
    ensures UniqueSessionNames(CreateSession(st, tasks, user, form).value.store)
  {
    var conf := form.confwebsafekey.value;
    var name := form.name.value;
    if FindSession(st, conf, name).None? {
      var sessions := CreateSession(st, tasks, user, form).value.store.sessions;
      forall a | a in st.sessions
        ensures !SessionNamed(conf, name)(st.sessions[a])
      {
        assert a < st.nextId;
      }
      assert sessions[st.nextId].conference == conf && sessions[st.nextId].name == name;
    }
  }

  /** Creation never stores a second speaker of the same name. */
  lemma CreateSessionKeepsSpeakerNamesUnique(st: Store, tasks: seq<Task>, user: Option<User>, form: SessionForm)
    requires st.Wf() && UniqueSpeakerNames(st)
    requires CreateSession(st, tasks, user, form).Ok?
    ensures UniqueSpeakerNames(CreateSession(st, tasks, user, form).value.store)
  {
    if FindSession(st, form.confwebsafekey.value, form.name.value).None?
      && Present(form.speakerName) && FindSpeaker(st, form.speakerName.value).None?
    {
      var name := form.speakerName.value;
      forall a | a in st.speakers
        ensures !SpeakerNamed(name)(st.speakers[a])
      {
        assert a < st.nextId;
      }
    }
  }

  /** Sending the same request twice stores what sending it once does: the
      second call finds the session by name and changes nothing. */
  lemma CreateSessionIdempotent(st: Store, tasks: seq<Task>, user: Option<User>, form: SessionForm)
    requires st.Wf()
    requires CreateSession(st, tasks, user, form).Ok?
    ensures
      var first := CreateSession(st, tasks, user, form).value;
      CreateSession(first.store, first.tasks, user, form) == Ok(SessionCreated(first.store, first.tasks, form))
  {
    var first := CreateSession(st, tasks, user, form).value;
    var conf := form.confwebsafekey.value;
    var name := form.name.value;
    if FindSession(st, conf, name).None? {
      assert st.nextId < first.store.nextId && st.nextId in first.store.sessions;
      assert SessionNamed(conf, name)(first.store.sessions[st.nextId]);
    }
  }

  /** A newly stored speaker is not the one the new session points at: the
      session's speaker reference resolves to no speaker at all. */
  lemma NewSpeakerIsOrphaned(st: Store, tasks: seq<Task>, user: Option<User>, form: SessionForm)
    requires st.Wf()
    requires CreateSession(st, tasks, user, form).Ok?
    requires FindSession(st, form.confwebsafekey.value, form.name.value).None?
    requires Present(form.speakerName) && FindSpeaker(st, form.speakerName.value).None?
    ensures
      var after := CreateSession(st, tasks, user, form).value.store;
      && after.sessions[st.nextId].speakerKey.Some?
      && after.sessions[st.nextId].speakerKey.value !in after.speakers
      && FindSpeaker(after, form.speakerName.value).Some?
  {
    var after := CreateSession(st, tasks, user, form).value.store;
    var name := form.speakerName.value;
    assert st.nextId + 1 !in st.speakers;
    assert SpeakerNamed(name)(after.speakers[st.nextId + 2]);
  }
}

=== FILE: text.dfy ===
/** String helpers the API relies on: `sep.join(xs)`, Python 2's `int(text)`
    and `str(n)` on integers, and the list rendering `%s` applies to a list
    of names. */
module Text {
  import opened Common

  /** `b` contains `a` as a contiguous piece. */
  ghost predicate IsInfix(a: string, b: string) {
    exists k :: InfixAt(a, b, k)
  }

  /** `a` occurs in `b` starting at position `k`. */
  predicate InfixAt(a: string, b: string, k: int) {
    0 <= k <= |b| - |a| && b[k..k + |a|] == a
  }

  /** Python's `sep.join(xs)`. */
  function Join(sep: string, xs: seq<string>): (r: string)
    ensures |xs| == 0 ==> r == ""
    ensures |xs| == 1 ==> r == xs[0]
    decreases |xs|
  {
    if |xs| == 0 then ""
    else if |xs| == 1 then xs[0]
    else xs[0] + sep + Join(sep, xs[1..])
  }

  lemma InfixOfPrefix(a: string, b: string, c: string)
    requires IsInfix(a, b)
    ensures IsInfix(a, b + c)
  {
    var k :| InfixAt(a, b, k);
    assert (b + c)[k..k + |a|] == b[k..k + |a|];
    assert InfixAt(a, b + c, k);
  }

  lemma InfixOfSuffix(a: string, b: string, c: string)
    requires IsInfix(a, c)
    ensures IsInfix(a, b + c)
  {
    var k :| InfixAt(a, c, k);
    assert (b + c)[|b| + k..|b| + k + |a|] == c[k..k + |a|];
    assert InfixAt(a, b + c, |b| + k);
  }

  lemma InfixOfSelf(a: string)
    ensures IsInfix(a, a)
  {
    assert a[0..|a|] == a;
    assert InfixAt(a, a, 0);
  }

  /** Every joined element can be found in the joined text. */
  lemma {:induction false} JoinMentionsEach(sep: string, xs: seq<string>, i: nat)
    requires i < |xs|
    ensures IsInfix(xs[i], Join(sep, xs))
    decreases |xs|
  {
    if |xs| == 1 {
      InfixOfSelf(xs[0]);
    } else if i == 0 {
      InfixOfSelf(xs[0]);
      InfixOfPrefix(xs[0], xs[0], sep + Join(sep, xs[1..]));
      assert xs[0] + sep + Join(sep, xs[1..]) == xs[0] + (sep + Join(sep, xs[1..]));
    } else {
      JoinMentionsEach(sep, xs[1..], i - 1);
      InfixOfSuffix(xs[i], xs[0] + sep, Join(sep, xs[1..]));
    }
  }

  /** Python 2 `str(u)` on a unicode string encodes it with the ASCII
      codec: it succeeds exactly when every character is below 128. */
  predicate IsAscii(s: string) {
    forall i :: 0 <= i < |s| ==> s[i] < 128 as char
  }

  // ---------------------------------------------------------------------
  // String order

  /** The datastore's order on text: character by character, a proper
      prefix first. Text is stored as UTF-8, whose byte order agrees with
      code point order. */
  predicate StrLess(a: string, b: string)
    decreases |a|
  {
    |b| > 0 && (|a| == 0 || a[0] < b[0] || (a[0] == b[0] && StrLess(a[1..], b[1..])))
  }

  lemma {:induction false} StrLessIrreflexive(a: string)
    ensures !StrLess(a, a)
    decreases |a|
  {
    if |a| > 0 {
      StrLessIrreflexive(a[1..]);
    }
  }

  lemma {:induction false} StrLessTransitive(a: string, b: string, c: string)
    requires StrLess(a, b) && StrLess(b, c)
    ensures StrLess(a, c)
    decreases |a|
  {
    if |a| > 0 && a[0] == b[0] && b[0] == c[0] {
      StrLessTransitive(a[1..], b[1..], c[1..]);
    }
  }

  lemma {:induction false} StrLessTotal(a: string, b: string)
    ensures a == b || StrLess(a, b) || StrLess(b, a)
    decreases |a|
  {
    if |a| > 0 && |b| > 0 && a[0] == b[0] {
      StrLessTotal(a[1..], b[1..]);
      if a[1..] == b[1..] {
        assert a == [a[0]] + a[1..] && b == [b[0]] + b[1..];
      }
    }
  }

  // ---------------------------------------------------------------------
  // Decimal integers

  predicate IsDigit(c: char) {
    '0' <= c <= '9'
  }

  predicate AllDigits(s: string) {
    forall i :: 0 <= i < |s| ==> IsDigit(s[i])
  }

  /** The value of a run of decimal digits, most significant first. */
  function DigitsValue(s: string): nat
    requires AllDigits(s)
    decreases |s|
  {
    if |s| == 0 then 0
    else DigitsValue(s[..|s| - 1]) * 10 + (s[|s| - 1] as int - '0' as int)
  }

  function DigitChar(d: nat): (c: char)
    requires d < 10
    ensures IsDigit(c) && c as int - '0' as int == d
  {
    ('0' as int + d) as char
  }

  /** `str(n)` for a natural number: shortest decimal form. */
  function NatToString(n: nat): (s: string)
    ensures |s| > 0 && AllDigits(s)
    decreases n
  {
    if n < 10 then [DigitChar(n)]
    else NatToString(n / 10) + [DigitChar(n % 10)]
  }

  /** `str(i)` for any integer. */
  function IntToString(i: int): (s: string)
    ensures |s| > 0
  {
    if i < 0 then "-" + NatToString(-i) else NatToString(i)
  }

  lemma {:induction false} NatToStringValue(n: nat)
    ensures DigitsValue(NatToString(n)) == n
    decreases n
  {
    var s := NatToString(n);
    if n >= 10 {
      NatToStringValue(n / 10);
      assert s[..|s| - 1] == NatToString(n / 10);
    }
  }

  /** The ASCII white space of Python 2's `int()` on a unicode argument:
      C's `isspace` set, plus the separators U+001C to U+001F that
      `Py_UNICODE_ISSPACE` also counts. `int()` skips it around its argument
      and between the sign and the digits. */
  predicate IsSpace(c: char) {
    c == ' ' || c == '\t' || c == '\n' || c == '\r' || c == '\U{B}' || c == '\U{C}'
    || ('\U{1C}' <= c <= '\U{1F}')
  }

  function TrimLeft(s: string): (r: string)
    ensures |r| <= |s| && r == s[|s| - |r|..]
    ensures |r| > 0 ==> !IsSpace(r[0])
    decreases |s|
  {
    if |s| > 0 && IsSpace(s[0]) then TrimLeft(s[1..]) else s
  }

  function TrimRight(s: string): (r: string)
    ensures |r| <= |s| && r == s[..|r|]
    ensures |r| > 0 ==> !IsSpace(r[|r| - 1])
    decreases |s|
  {
    if |s| > 0 && IsSpace(s[|s| - 1]) then TrimRight(s[..|s| - 1]) else s
  }

  function Strip(s: string): string {
    TrimRight(TrimLeft(s))
  }

  /** Python 2 `int(text)` in base 10 on ASCII text (`PyInt_FromString`
      and `PyOS_strtol`): white space around the numeral, an optional sign,
      white space again, then one or more ASCII digits; anything else raises
      ValueError, modelled as `None`. */
  function ParseInt(text: string): Option<int> {
    ParseNumeral(Strip(text))
  }

  /** An optional sign, white space, and one or more digits, with nothing
      around them. */
  function ParseNumeral(t: string): Option<int> {
    if |t| > 0 && (t[0] == '-' || t[0] == '+') then
      match ParseDigitRun(TrimLeft(t[1..]))
      case None => None
      case Some(v) => Some(if t[0] == '-' then -(v as int) else v)
    else ParseDigitRun(t)
  }

  /** One or more digits and nothing else. */
  function ParseDigitRun(d: string): Option<nat> {
    if |d| > 0 && AllDigits(d) then Some(DigitsValue(d)) else None
  }

  lemma StripNoSpace(s: string)
    requires |s| > 0 && !IsSpace(s[0]) && !IsSpace(s[|s| - 1])
    ensures Strip(s) == s
  {
  }

  /** A run of digits parses to its value. */
  lemma ParseDigits(d: string)
    requires |d| > 0 && AllDigits(d)
    ensures ParseInt(d) == Some(DigitsValue(d))
  {
    assert IsDigit(d[0]) && IsDigit(d[|d| - 1]);
    StripNoSpace(d);
    DigitRunNumeral(d);
  }

  lemma DigitRunNumeral(d: string)
    requires |d| > 0 && AllDigits(d)
    ensures ParseNumeral(d) == Some(DigitsValue(d))
  {
    assert IsDigit(d[0]);
  }

  /** A minus sign and a run of digits parse to the negated value. */
  lemma ParseNegatedDigits(d: string)
    requires |d| > 0 && AllDigits(d)
    ensures ParseInt("-" + d) == Some(-(DigitsValue(d) as int))
  {
    NegatedNoSpace(d);
    NegatedNumeral(d);
  }

  lemma NegatedNoSpace(d: string)
    requires |d| > 0 && AllDigits(d)
    ensures Strip("-" + d) == "-" + d
  {
    var s := "-" + d;
    assert s[0] == '-' && s[|s| - 1] == d[|d| - 1] && IsDigit(d[|d| - 1]);
    StripNoSpace(s);
  }

  lemma NegatedNumeral(d: string)
    requires |d| > 0 && AllDigits(d)
    ensures ParseNumeral("-" + d) == Some(-(DigitsValue(d) as int))
  {
    var s := "-" + d;
    assert s[1..] == d;
    assert IsDigit(d[0]);
    TrimLeftNoSpace(d);
    NegativeNumeral(s, d);
  }

  lemma TrimLeftNoSpace(x: string)
    requires |x| > 0 && !IsSpace(x[0])
    ensures TrimLeft(x) == x
  {
  }

  lemma TrimLeftSpace(x: string)
    requires |x| > 0 && IsSpace(x[0])
    ensures TrimLeft(x) == TrimLeft(x[1..])
  {
  }

  lemma NegativeNumeral(t: string, d: string)
    requires |t| > 1 && t[0] == '-' && TrimLeft(t[1..]) == d && |d| > 0 && AllDigits(d)
    ensures ParseNumeral(t) == Some(-(DigitsValue(d) as int))
  {
    SignThenDigits(t, d);
  }

  /** A sign, then white space and digits, parse to the signed value. */
  lemma SignThenDigits(t: string, d: string)
    requires |t| > 0 && (t[0] == '-' || t[0] == '+') && TrimLeft(t[1..]) == d && |d| > 0 && AllDigits(d)
    ensures ParseNumeral(t) == Some(if t[0] == '-' then -(DigitsValue(d) as int) else DigitsValue(d))
  {
  }

  /** `int(str(i)) == i`: the text form of an integer parses back to it. */
  lemma ParseIntRoundTrip(i: int)
    ensures ParseInt(IntToString(i)) == Some(i)
  {
    var n: nat := if i < 0 then -i else i;
    NatToStringValue(n);
    if i < 0 {
      ParseNegatedDigits(NatToString(n));
    } else {
      ParseDigits(NatToString(n));
    }
  }

  /** White space before the digits is skipped, the ASCII separators
      included: `int(u"\x1c5") == 5`. */
  lemma ParsesAfterSeparator(d: string)
    requires |d| > 0 && AllDigits(d)
    ensures ParseInt("\U{1C}" + d) == Some(DigitsValue(d))
  {
    var s := "\U{1C}" + d;
    assert s[1..] == d;
    assert IsDigit(d[0]);
    TrimLeftSpace(s);
    TrimLeftNoSpace(d);
    assert Strip(s) == Strip(d);
    ParseDigits(d);
  }

  /** White space between the sign and the digits is skipped, as
      `PyOS_strtol` does: `int("- 5") == int("-5") == -5`. */
  lemma ParsesBlankAfterSign(d: string)
    requires |d| > 0 && AllDigits(d)
    ensures ParseInt("- " + d) == Some(-(DigitsValue(d) as int))
  {
    BlankNegatedNoSpace(d);
    BlankNegatedNumeral(d);
  }

  lemma BlankNegatedNoSpace(d: string)
    requires |d| > 0 && AllDigits(d)
    ensures Strip("- " + d) == "- " + d
  {
    var s := "- " + d;
    assert s[0] == '-' && s[|s| - 1] == d[|d| - 1] && IsDigit(d[|d| - 1]);
    StripNoSpace(s);
  }

  lemma BlankNegatedNumeral(d: string)
    requires |d| > 0 && AllDigits(d)
    ensures ParseNumeral("- " + d) == Some(-(DigitsValue(d) as int))
  {
    SignedNumeral("- " + d, " " + d, d);
  }

  lemma SignedNumeral(t: string, rest: string, d: string)
    requires |t| > 1 && t[0] == '-' && t[1..] == rest && rest == " " + d && |d| > 0 && AllDigits(d)
    ensures ParseNumeral(t) == Some(-(DigitsValue(d) as int))
  {
    BlankThenDigits(rest, d);
    NegativeNumeral(t, d);
  }

  lemma BlankThenDigits(rest: string, d: string)
    requires rest == " " + d && |d| > 0 && AllDigits(d)
    ensures TrimLeft(rest) == d
  {
    assert rest[1..] == d;
    assert IsDigit(d[0]);
    TrimLeftSpace(rest);
    TrimLeftNoSpace(d);
  }

  /** Python's `repr` of a list of (unicode) names, as `%s` renders it. */
  function ListRepr(names: seq<string>): string {
    "[" + Join(", ", QuoteAll(names)) + "]"
  }

  function QuoteAll(names: seq<string>): (r: seq<string>)
    ensures |r| == |names|
    ensures forall i :: 0 <= i < |names| ==> r[i] == "u'" + names[i] + "'"
  {
    if |names| == 0 then [] else ["u'" + names[0] + "'"] + QuoteAll(names[1..])
  }

  /** Every name in the rendered list can be found in it. */
  lemma ListReprMentionsEach(names: seq<string>, i: nat)
    requires i < |names|
    ensures IsInfix(names[i], ListRepr(names))
  {
    var q := QuoteAll(names);
    JoinMentionsEach(", ", q, i);
    assert q[i] == "u'" + names[i] + "'";
    InfixOfSelf(names[i]);
    InfixOfSuffix(names[i], "u'", names[i]);
    InfixOfPrefix(names[i], "u'" + names[i], "'");
    InfixTransitive(names[i], q[i], Join(", ", q));
    InfixOfSuffix(names[i], "[", Join(", ", q));
    InfixOfPrefix(names[i], "[" + Join(", ", q), "]");
  }

  lemma InfixTransitive(a: string, b: string, c: string)
    requires IsInfix(a, b) && IsInfix(b, c)
    ensures IsInfix(a, c)
  {
    var k :| InfixAt(a, b, k);
    var m :| InfixAt(b, c, m);
    forall j | 0 <= j < |a|
      ensures c[m + k..m + k + |a|][j] == a[j]
    {
      assert c[m + k + j] == c[m..m + |b|][k + j] == b[k + j] == b[k..k + |a|][j];
    }
    assert c[m + k..m + k + |a|] == a;
    assert InfixAt(a, c, m + k);
  }
}

=== FILE: wishlists.dfy ===
/** Adding a session to the caller's wishlist (`_createWishListObject`,
    conference.py:762-803).

    The code looks for an existing entry among the entries whose parent is
    the caller's profile, but stores the new entry without a parent: the key
    it allocates under the profile is never used. The look-up therefore never
    finds an earlier entry and every call adds one. `CreateWishListAsWritten`
    models that; `CreateWishList` stores the entry under the allocated key, as
    the look-up expects, and keeps one entry per profile and session. */
module Wishlists {
  import opened Common
  import opened Datastore

  /** The entries whose parent is `user` and that point at session `s`:
      `WishList.query(ancestor=p_key).filter(WishList.sessionKey == s)`. */
  function EntriesFor(st: Store, user: UserId, s: Id): seq<Id> {
    IdsWhere(st.wishlists, (e: WishListEntry) => e.owner == Some(user) && e.sessionKey == s, st.nextId)
  }

  /** The source as written: the new entry gets no parent and a datastore id
      other than the one allocated for it. */
  function CreateWishListAsWritten(st: Store, user: Option<User>, session: Id): (r: Result<Store>)
    ensures user.None? ==> r == Err(Unauthorized)
    ensures r.Ok? <==> user.Some? && session in st.sessions
    ensures r.Ok? && |EntriesFor(st, user.value.id, session)| > 0 ==> r.value == st
    ensures r.Ok? && |EntriesFor(st, user.value.id, session)| == 0 ==>
      r.value == st.(wishlists := st.wishlists[st.nextId + 1 := WishListEntry(None, session, user.value.id)],
                     nextId := st.nextId + 2)
  {
    if user.None? then Err(Unauthorized)
    else if session !in st.sessions then Err(MissingEntity)
    else if |EntriesFor(st, user.value.id, session)| > 0 then Ok(st)
    else
      var reserved := st.nextId;    // allocated under the profile, never used
      var stored := reserved + 1;
      Ok(st.(wishlists := st.wishlists[stored := WishListEntry(None, session, user.value.id)], nextId := stored + 1))
  }

  /** Two entries of the same user for the same session. */
  predicate Duplicates(a: WishListEntry, b: WishListEntry) {
    a.userID == b.userID && a.sessionKey == b.sessionKey
  }

  /** Adding the same session twice, as written, leaves two entries for it. */
  lemma AsWrittenAddsDuplicates(st: Store, u: User, session: Id)
    requires session in st.sessions
    requires forall k :: k in st.wishlists ==> st.wishlists[k].owner.None?
    ensures
      var once := CreateWishListAsWritten(st, Some(u), session).value;
      var twice := CreateWishListAsWritten(once, Some(u), session).value;
      && st.nextId + 1 in twice.wishlists && st.nextId + 3 in twice.wishlists
      && Duplicates(twice.wishlists[st.nextId + 1], twice.wishlists[st.nextId + 3])
  {
    NoParentNoEntries(st, u.id, session);
    var once := CreateWishListAsWritten(st, Some(u), session).value;
    NoParentNoEntries(once, u.id, session);
  }

  /** When no entry has a parent, the look-up by parent finds nothing. */
  lemma NoParentNoEntries(st: Store, user: UserId, session: Id)
    requires forall k :: k in st.wishlists ==> st.wishlists[k].owner.None?
    ensures EntriesFor(st, user, session) == []
  {
    var found := EntriesFor(st, user, session);
    assert |found| > 0 ==> st.wishlists[found[0]].owner == Some(user);
  }

  /** `_createWishListObject` with the entry stored under the key allocated
      for it, whose parent is the caller's profile: a session already on the
      caller's wishlist is not added again. */
  function CreateWishList(st: Store, user: Option<User>, session: Id): (r: Result<Store>)
    ensures user.None? ==> r == Err(Unauthorized)
    ensures user.Some? && session !in st.sessions ==> r == Err(MissingEntity)
    ensures r.Ok? <==> user.Some? && session in st.sessions
    ensures r.Ok? && |EntriesFor(st, user.value.id, session)| > 0 ==> r.value == st
    ensures r.Ok? && |EntriesFor(st, user.value.id, session)| == 0 ==>
      r.value == st.(wishlists := st.wishlists[st.nextId := WishListEntry(Some(user.value.id), session, user.value.id)],
                     nextId := st.nextId + 1)
  {
    if user.None? then Err(Unauthorized)
    else if session !in st.sessions then Err(MissingEntity)
    else if |EntriesFor(st, user.value.id, session)| > 0 then Ok(st)
    else
      var key := st.nextId;
      Ok(st.(wishlists := st.wishlists[key := WishListEntry(Some(user.value.id), session, user.value.id)], nextId := key + 1))
  }

  /** Each profile has at most one entry per session. */
  ghost predicate UniqueWishListEntries(st: Store) {
    forall a, b :: a in st.wishlists && b in st.wishlists && st.wishlists[a].owner.Some?
      && st.wishlists[a].owner == st.wishlists[b].owner && st.wishlists[a].sessionKey == st.wishlists[b].sessionKey
      ==> a == b
  }

  /** Adding keeps at most one entry per profile and session. */
  lemma CreateWishListKeepsEntriesUnique(st: Store, user: Option<User>, session: Id)
    requires st.Wf() && UniqueWishListEntries(st)
    requires CreateWishList(st, user, session).Ok?
    ensures UniqueWishListEntries(CreateWishList(st, user, session).value)
    ensures CreateWishList(st, user, session).value.Wf()
  {
    var u := user.value.id;
    if |EntriesFor(st, u, session)| == 0 {
      forall a | a in st.wishlists
        ensures !(st.wishlists[a].owner == Some(u) && st.wishlists[a].sessionKey == session)
      {
        assert a < st.nextId;
        assert st.wishlists[a].owner == Some(u) && st.wishlists[a].sessionKey == session ==>
          a in EntriesFor(st, u, session);
      }
    }
  }

  /** Adding the same session twice stores what adding it once does. */
  lemma CreateWishListIdempotent(st: Store, user: Option<User>, session: Id)
    requires CreateWishList(st, user, session).Ok?
    ensures CreateWishList(CreateWishList(st, user, session).value, user, session) == CreateWishList(st, user, session)
  {
    var once := CreateWishList(st, user, session).value;
    var u := user.value.id;
    if |EntriesFor(st, u, session)| == 0 {
      assert st.nextId in EntriesFor(once, u, session);
    }
  }

  /** Adding the sessions of `ss` one after another, stopping at the first error. */
  function AddAll(st: Store, user: Option<User>, ss: seq<Id>): Result<Store>
    decreases |ss|
  {
    if |ss| == 0 then Ok(st)
    else
      match CreateWishList(st, user, ss[0])
      case Err(e) => Err(e)
      case Ok(next) => AddAll(next, user, ss[1..])
  }

  /** However many sessions are added, in whatever order and with whatever
      repetitions, each profile keeps at most one entry per session. */
  lemma {:induction false} AddAllKeepsEntriesUnique(st: Store, user: Option<User>, ss: seq<Id>)
    requires st.Wf() && UniqueWishListEntries(st)
    ensures AddAll(st, user, ss).Ok? ==>
      AddAll(st, user, ss).value.Wf() && UniqueWishListEntries(AddAll(st, user, ss).value)
    decreases |ss|
  {
    if |ss| > 0 && CreateWishList(st, user, ss[0]).Ok? {
      CreateWishListKeepsEntriesUnique(st, user, ss[0]);
      AddAllKeepsEntriesUnique(CreateWishList(st, user, ss[0]).value, user, ss[1..]);
    }
  }
}
